=== FILE: README.md ===
# Stream backend handlers, modelled in Dafny

The backend connects browsers over a socket connection and serves three jobs:
- a **room registry** maps each room id to the ordered list of peers that joined it;
- a **media registry** holds one router per room, the WebRTC transports tagged with the connection and room that created them, and the producers created on those transports;
- an **HLS stream handler** keeps one session per room. Each session buffers the browser's binary chunks in a bounded `ChunkBuffer` (capacity 20) and feeds them to an external transcoder. It restarts the transcoder when data stalls or the process exits, switches its input format from `webm` to `matroska` after repeated exits, and falls back to a synthetic test pattern when restarts run out.

This project models those handlers as Dafny code and proves what they guarantee.

Modules:
- `Results`: the `Option` and `Result` types.
- `Seqs`: removal of every occurrence of a value from a list, as `filter(id => id !== x)` does.
- `Connections`: the per-connection state. This is the ordered set of joined socket rooms and the `peerId`/`roomId` recorded on the connection.
- `ChunkBuffers`: the `ChunkBuffer` class. It is proved to hold the newest `maxSize` chunks ever added, and a byte total equal to their sizes.
- `StreamSessions`: one room's session as a value, and `Step`, the effect of every event it reacts to. The events are a chunk, the restart timer, a health tick, a transcoder exit, a test-pattern exit, a stop, and the owner's disconnect.
- `StreamSessionProofs`: what those transitions guarantee over any sequence of events. It also holds the findings below, with a corrected machine (`StepCorrected`) that only the corrected members use.
- `StreamSupervisor`: the `activeStreams` map and the event handlers, as a class. Each record's chunk buffer is an object updated in place. Every handler is proved to change the ghost map `sessions` exactly as `StreamSessions` prescribes.
- `Rooms`: the room registry as a class, and its pure specification `Joined`/`Departed`.
- `Media`: the media registry as a class. Producers are kept in creation order, and the producer scan of the streaming extraction is a loop proved against `Selected`.

Modelling choices:
- The clock is a parameter: the `now` of each event.
- Timers and process exits are events the environment may deliver at any time. The model therefore covers every interleaving the real handlers can see, and some they cannot.
- Engine ids come from a counter. Transcoder ids come from the supervisor's counter. The room id of `createRoom` is a parameter.

## Model

| member | source | states |
|---|---|---|
| ChunkBuffers.ChunkBuffer.constructor | src/handlers/stream.handler.ts:18-22 | a new buffer holds no chunks and no bytes, with the given capacity |
| ChunkBuffers.ChunkBuffer.Add | src/handlers/stream.handler.ts:24-33 | after the push and the drop-oldest loop, the buffer holds the newest `maxSize` of all chunks added, in arrival order; the byte total matches the retained chunks |
| ChunkBuffers.ChunkBuffer.GetChunks | src/handlers/stream.handler.ts:35-37 | the retained chunks are the window of the last `maxSize` chunks added, at most `maxSize` of them, whose sizes sum to `totalBytes` |
| ChunkBuffers.ChunkBuffer.Clear | src/handlers/stream.handler.ts:39-42 | the buffer is emptied, its byte total is 0, and the history restarts |
| ChunkBuffers.ChunkBuffer.IsEmpty | src/handlers/stream.handler.ts:44-46 | empty exactly when nothing was added since creation or the last clear (or the capacity is 0); empty implies zero bytes |
| ChunkBuffers.TotalBytesAppend | src/handlers/stream.handler.ts:25-26 | pushing a chunk adds exactly its length to the byte total |
| ChunkBuffers.WindowShape | src/handlers/stream.handler.ts:24-33 | after one push the buffer holds min(n+1, capacity) chunks, the newest last, each the corresponding element of the history's tail |
| ChunkBuffers.WindowSlide | src/handlers/stream.handler.ts:27-32 | dropping the oldest after each push equals keeping the last `maxSize` of the whole history |
| Connections.Connection.Join | src/handlers/stream.handler.ts:79 | joining keeps a room already joined in its place and appends a new one |
| Connections.Connection.Leave | src/handlers/stream.handler.ts:359 | leaving removes the room and keeps the order of the others |
| Seqs.Without | src/handlers/room.handler.ts:55 | the filtered list no longer holds the value and holds nothing the original did not |
| Seqs.WithoutAppend | src/handlers/room.handler.ts:55 | filtering distributes over concatenation (the survivors keep their order) |
| Seqs.WithoutAbsent | src/handlers/room.handler.ts:55 | filtering out a value that is absent changes nothing |
| Seqs.WithoutCounts | src/handlers/room.handler.ts:55 | the removed value has no occurrence left; every other value keeps its count |
| Seqs.WithoutEmpty | src/handlers/room.handler.ts:55-57 | the filtered list is empty exactly when every element was the removed value |
| Seqs.WithoutSingle | src/handlers/room.handler.ts:55 | a one-element list survives unless its element is removed |
| StreamSessions.Initialize | src/handlers/stream.handler.ts:114-193 | whatever the session's state, a piped transcoder is spawned with the whole buffer as its input, the session is marked initialized and tagged `webm`, and nothing else changes |
| StreamSessions.TestPatternFallback | src/handlers/stream.handler.ts:257-323 | an inactive session is unchanged; an active one gets a live pattern-source process, the `test-pattern` tag and `initialized`, keeping its buffer, counter and timestamp |
| StreamSessions.Restart | src/handlers/stream.handler.ts:210-238 | an inactive session is unchanged; at 5 restarts it is the test-pattern fallback; otherwise the process is ended, the counter goes up by one, `initialized` is cleared and the tag kept |
| StreamSessions.TryBackup | src/handlers/stream.handler.ts:240-255 | an inactive session is unchanged; `webm` after two restarts becomes `matroska` with the counter at 1; `matroska` after two restarts gets the test pattern; otherwise it is a restart |
| StreamSessions.Received | src/handlers/stream.handler.ts:377-409 | an inactive session ignores the chunk; an active one refreshes its timestamp and buffers it, and an uninitialized one is initialized exactly when 3 chunks are buffered |
| StreamSessions.Stopped | src/handlers/stream.handler.ts:353-358 | the session is inactive, uninitialized and its process ended; buffer, counter and tag are kept |
| StreamSessions.Step | src/handlers/stream.handler.ts:114-442 | no event reactivates a session; only a chunk changes the buffer or the timestamp; stop, disconnect and the test-pattern exit leave the session inactive |
| StreamSessions.DisconnectAll | src/handlers/stream.handler.ts:422-442 | every session stays registered, and a session still active afterwards was active before and is not in one of the connection's stream rooms |
| StreamSessions.Started | src/handlers/stream.handler.ts:69-77 | a started session is active and initialized, has no restarts, is tagged `webm`, has an empty buffer, and has a live piped transcoder with no input yet |
| StreamSessions.FindStreamRoom | src/handlers/stream.handler.ts:370-376 | none exactly when no joined room has the `stream:` prefix; otherwise the room id of the first one that has it |
| StreamSessionProofs.StartedConsistent | src/handlers/stream.handler.ts:69-93 | a started session satisfies the session invariant |
| StreamSessionProofs.StepConsistent | src/handlers/stream.handler.ts:114-442 | every event preserves the invariant: at most 5 restarts, at most 20 chunks, a format tag once started, a process when initialized, `matroska` only on an uninitialized session, and the `test-pattern` tag exactly when the process reads the pattern source |
| StreamSessionProofs.RunConsistent | src/handlers/stream.handler.ts:114-442 | the invariant holds after any sequence of events |
| StreamSessionProofs.CountDropsOnlyOnFormatSwitch | src/handlers/stream.handler.ts:246-249 | the restart counter decreases only when an exit switches `webm` to `matroska` after two restarts, and the restart that follows leaves it at 1 |
| StreamSessionProofs.ChunkBeforeInitialization | src/handlers/stream.handler.ts:383-391 | before initialization a chunk is only buffered, and it initializes the transcoder exactly when 3 chunks are buffered, replaying the whole buffer and tagging it `webm` |
| StreamSessionProofs.ChunkWhileRunning | src/handlers/stream.handler.ts:393-409 | once initialized, a chunk is buffered and written once to the live process; the tag and the counter are unchanged |
| StreamSessionProofs.ThresholdScenario | src/handlers/stream.handler.ts:383-391 | on an active session waiting for a transcoder with an empty buffer, as after a restart of a stream that had buffered nothing, two chunks are only buffered and the third starts a transcoder with all three, oldest first |
| StreamSessionProofs.StopEndsSession | src/handlers/stream.handler.ts:353-358 | stop and disconnect deactivate an active session and end its process, and leave an inactive one unchanged |
| StreamSessionProofs.HealthTickRestartsOnlyOnStall | src/handlers/stream.handler.ts:200-216 | a health tick within 10 s of the last frame changes nothing; after that it counts a restart, or at 5 restarts starts the test pattern |
| StreamSessionProofs.InitializeCorrected | src/handlers/stream.handler.ts:114-182 | corrected: only an active session waiting for a transcoder is initialized, and a `matroska` tag is kept |
| StreamSessionProofs.StepCorrected | src/handlers/stream.handler.ts:114-442 | corrected: differs from the as-written transitions only on the restart timer and on chunks |
| StreamSessionProofs.CorrectionScope | src/handlers/stream.handler.ts:114-182 | the corrected initialization agrees with the code on active uninitialized non-`matroska` sessions, leaves every other non-waiting session alone, and on `matroska` differs only in the tag |
| StreamSessionProofs.ExitRoundsStayOnWebm | src/handlers/stream.handler.ts:182 | as written, when every exit is followed by the restart timer, the session stays on `webm` with at most 2 restarts, forever |
| StreamSessionProofs.StartedStreamNeverFallsBack | src/handlers/stream.handler.ts:240-255 | as written, six exits of a new stream, each followed by the timer, never leave `webm` |
| StreamSessionProofs.BackToBackExitsReachTestPattern | src/handlers/stream.handler.ts:240-255 | as written, three exits with no timer in between, whichever processes report them, take `webm` after two restarts to `matroska` and then to the test pattern |
| StreamSessionProofs.CorrectedExitsReachTestPattern | src/handlers/stream.handler.ts:240-255 | corrected: two restarts on `webm`, a switch to `matroska`, two more restarts, and the fifth exit starts the test pattern |
| StreamSessionProofs.StalledStreamStaysOnWebm | src/handlers/stream.handler.ts:169-182 | as written, through any number of stall rounds (health tick, close of the killed transcoder, both restart timers) the session stays active on `webm` with at most 2 restarts, and after a round it is initialized with at least one restart |
| StreamSessionProofs.StalledStreamNeverFallsBack | src/handlers/stream.handler.ts:195-216 | as written, a stream that gets no data after its start is still on `webm` and active after ten stall rounds |
| StreamSessionProofs.CorrectedStallReachesTestPattern | src/handlers/stream.handler.ts:195-255 | corrected: a stalled stream reaches a live test-pattern transcoder in the third stall round |
| StreamSessionProofs.StaleRestartTimerSpawns | src/handlers/stream.handler.ts:115-116 | as written, a restart timer firing after a stop spawns a live transcoder for the stopped session |
| StreamSessionProofs.InactiveSessionKeepsProcess | src/handlers/stream.handler.ts:212 | as written, an inactive session is unchanged by every event except the restart timer and the exit of its own process |
| StreamSessionProofs.CorrectedTimerIgnoresStoppedSession | src/handlers/stream.handler.ts:235-237 | corrected: a stale restart timer leaves the stopped session, and its ended transcoder, unchanged |
| StreamSessionProofs.CorrectedInactiveSessionKeepsProcess | src/handlers/stream.handler.ts:212 | corrected: an inactive session is unchanged by every event except the exit of its own process |
| StreamSessionProofs.ChunkThenTimerOrphansProcess | src/handlers/stream.handler.ts:180 | as written, on a session waiting for a transcoder with 2 chunks buffered, the next chunk initializes at once, and the restart timer then replaces that live transcoder with a second one |
| StreamSessionProofs.CorrectedTimerKeepsRunningProcess | src/handlers/stream.handler.ts:235-237 | corrected: the timer after a chunk-initialization keeps the running transcoder |
| StreamSessionProofs.DisconnectStopsOwnedSessions | src/handlers/stream.handler.ts:422-442 | a disconnect stops exactly the active sessions whose stream room the connection is in and keeps every other session |
| StreamSupervisor.Supervisor.constructor | src/handlers/stream.handler.ts:12 | the registry starts with no session |
| StreamSupervisor.Supervisor.StartHlsStream | src/handlers/stream.handler.ts:50-98 | an active session refuses and nothing changes; otherwise the room gets a started session in place of any old one, the connection joins `stream:<room>`, and the playback URL is reported |
| StreamSupervisor.Supervisor.Create | src/handlers/stream.handler.ts:69-77 | the room gets a fresh active record with a new empty buffer of capacity 20 |
| StreamSupervisor.Supervisor.InitializeStreamProcessor | src/handlers/stream.handler.ts:114-208 | the room's session, whatever its state, takes the restart-timer transition (`Initialize`); the loop writes the whole buffer, in order, to the new process |
| StreamSupervisor.Supervisor.GenerateTestPattern | src/handlers/stream.handler.ts:257-323 | an active session gets the pattern-source process and the `test-pattern` tag; anything else is unchanged |
| StreamSupervisor.Supervisor.RestartProcessor | src/handlers/stream.handler.ts:210-238 | an active session is killed and counted, or falls back to the test pattern at 5 restarts |
| StreamSupervisor.Supervisor.TryBackupProcessor | src/handlers/stream.handler.ts:240-255 | the session takes the format-fallback transition |
| StreamSupervisor.Supervisor.HandleBinaryStream | src/handlers/stream.handler.ts:369-380 | the chunk goes to the session of the connection's first stream room, or nowhere |
| StreamSupervisor.Supervisor.Feed | src/handlers/stream.handler.ts:377-409 | the session takes the chunk transition; only its own buffer object changes |
| StreamSupervisor.Supervisor.Append | src/handlers/stream.handler.ts:383-385 | the timestamp is refreshed and the chunk added to this room's buffer, with every other session unchanged |
| StreamSupervisor.Supervisor.RestartTimerFires | src/handlers/stream.handler.ts:235-237 | the session takes the restart-timer transition |
| StreamSupervisor.Supervisor.HealthCheck | src/handlers/stream.handler.ts:195-205 | the timer is kept exactly while the session exists and is active; the session takes the health-tick transition |
| StreamSupervisor.Supervisor.CheckStall | src/handlers/stream.handler.ts:200-204 | an active session is restarted exactly when no frame came for more than 10 s |
| StreamSupervisor.Supervisor.TranscoderExit | src/handlers/stream.handler.ts:164-178 | the exited process ends and the session takes the fallback transition |
| StreamSupervisor.Supervisor.ReactToExit | src/handlers/stream.handler.ts:169-178 | the fallback runs only for an active session |
| StreamSupervisor.Supervisor.TestPatternExit | src/handlers/stream.handler.ts:310-318 | the test-pattern exit deactivates the session |
| StreamSupervisor.Supervisor.StopHlsStream | src/handlers/stream.handler.ts:325-367 | a missing or inactive session refuses and nothing changes; otherwise the session stops and the connection leaves `stream:<room>` |
| StreamSupervisor.Supervisor.StopIfOwned | src/handlers/stream.handler.ts:424-440 | one room of the disconnect loop is stopped exactly when the connection is in its stream room and it is active |
| StreamSupervisor.Supervisor.Disconnect | src/handlers/stream.handler.ts:422-442 | after the loop over every session, the sessions are exactly `DisconnectAll` of the old ones |
| Rooms.Joined | src/handlers/room.handler.ts:20-21 | fails exactly for an unknown room; otherwise only that room's list changes, by the peer appended last |
| Rooms.Departed | src/handlers/room.handler.ts:52-60 | the peer is gone from its room, which is deleted only if every member was that peer; other rooms are unchanged |
| Rooms.JoinThenDepart | src/handlers/room.handler.ts:19-62 | a new peer's join followed by its departure restores the registry, except that a room that was empty is deleted |
| Rooms.JoinTwiceCountsTwice | src/handlers/room.handler.ts:21 | joins keep duplicates: two joins add two occurrences |
| Rooms.DepartRemovesEveryOccurrence | src/handlers/room.handler.ts:55 | departure keeps every other peer's count; a deleted room held no other peer |
| Rooms.DepartIdempotent | src/handlers/room.handler.ts:49-62 | a second departure of the same peer changes nothing |
| Rooms.RoomRegistry.constructor | src/handlers/room.handler.ts:7 | the registry starts empty |
| Rooms.RoomRegistry.CreateRoom | src/handlers/room.handler.ts:10-17 | the room is registered with no peers and the connection joins it |
| Rooms.RoomRegistry.JoinedRoom | src/handlers/room.handler.ts:19-41 | an unknown room is refused with nothing changed; otherwise the registry becomes `Joined`, the connection joins and records the room and peer, and the updated list is reported |
| Rooms.RoomRegistry.HandleDisconnect | src/handlers/room.handler.ts:49-62 | with a non-empty room and peer recorded, the registry becomes `Departed`; otherwise it is unchanged |
| Media.FirstOf | src/handlers/mediasoup.handler.ts:218-236 | a found producer is in the registry and eligible: of the requested kind, on a registered transport of the room |
| Media.Selected | src/handlers/mediasoup.handler.ts:213-243 | fails with `NoVideoProducer` exactly when the room has no eligible video producer; otherwise an eligible video producer, and an eligible audio producer exactly when the room has one |
| Media.FirstOfFinds | src/handlers/mediasoup.handler.ts:218-236 | the search finds nothing exactly when no producer is eligible, and otherwise an eligible one with no eligible producer before it |
| Media.FirstOfConcat | src/handlers/mediasoup.handler.ts:218-239 | the first match in a concatenation is the first part's, else the second's |
| Media.FirstOfExtend | src/handlers/mediasoup.handler.ts:231-235 | one more producer changes the selection only if none was chosen yet and it is eligible |
| Media.FirstOfPrefix | src/handlers/mediasoup.handler.ts:238 | stopping once both producers are found does not change the selection |
| Media.ProduceThenSelect | src/handlers/mediasoup.handler.ts:150-179 | a video producer created in a room with none makes the selection succeed with it, and the audio choice is unchanged |
| Media.Detach | src/handlers/mediasoup.handler.ts:169-172 | after transports close, exactly the producers not on a closed transport remain |
| Media.DetachNothing | src/handlers/mediasoup.handler.ts:295-304 | closing no transport keeps every producer |
| Media.DetachIncreasing | src/handlers/mediasoup.handler.ts:169-172 | closing transports keeps the creation order, so ids stay distinct |
| Media.DetachTwice | src/handlers/mediasoup.handler.ts:296-303 | closing one set of transports after another is closing their union |
| Media.Drop | src/handlers/mediasoup.handler.ts:171 | exactly the producers with another id remain |
| Media.DropExactlyOne | src/handlers/mediasoup.handler.ts:165-171 | ids are unique, so a delete removes at most one producer and keeps the order |
| Media.TransportsPartition | src/handlers/mediasoup.handler.ts:296-303 | the transports a disconnect keeps are the registry minus those it closes, and the two sets are disjoint and together make up the registry |
| Media.MediaRegistry.constructor | src/handlers/mediasoup.handler.ts:7-10 | all registries start empty |
| Media.MediaRegistry.CreateRouter | src/handlers/mediasoup.handler.ts:58-68 | a room's existing router is returned and nothing changes; otherwise one fresh router is stored, so a room never gets two |
| Media.MediaRegistry.CreateWebRtcTransport | src/handlers/mediasoup.handler.ts:92-131 | a room without a router fails with nothing changed; otherwise a fresh transport tagged with the connection and room is stored |
| Media.MediaRegistry.ConnectWebRtcTransport | src/handlers/mediasoup.handler.ts:133-148 | fails with `TransportNotFound` exactly for an unregistered transport |
| Media.MediaRegistry.Produce | src/handlers/mediasoup.handler.ts:150-179 | an unknown transport fails with nothing changed; otherwise a fresh producer recording its transport is added last |
| Media.MediaRegistry.ProducerTransportClosed | src/handlers/mediasoup.handler.ts:169-172 | exactly that producer is deleted and the registry invariant holds |
| Media.MediaRegistry.CloseTransport | src/handlers/mediasoup.handler.ts:300-301 | the transport is deleted, and so are its producers |
| Media.MediaRegistry.Disconnect | src/handlers/mediasoup.handler.ts:295-304 | after the loop, exactly the connection's transports are closed and deleted, with their producers |
| Media.MediaRegistry.SelectProducers | src/handlers/mediasoup.handler.ts:213-243 | the scan with its early exit returns exactly `Selected`: no video producer is an error, otherwise the first video and first audio producer of the room |

## Left out

- I/O is not modelled:
  - the file system (output directory, initial playlist and dummy segment);
  - the transcoder's command-line arguments, its stdout and stderr logging;
  - every `emit`, `callback` payload beyond success or error, and every log line.
- Asynchrony and concurrency are not modelled. Each handler runs atomically. In particular, `createRouter`'s check-then-`await` allows two concurrent calls for one room to create two routers; the model does not capture that race.
- The 500 ms delayed `SIGINT` after a stop is merged into the stop itself: the model ends the process at once. The handler's delayed kill reads the record's process only when it fires (lines 342-350). So it kills whatever transcoder is current then, including one that a stale restart timer spawned after the stop. The model does not capture that ordering.
- Timer cancellation (`clearInterval`) is not modelled. Health ticks and restart timers are unconstrained events, and each handler's own guards decide their effect. Each initialization starts a new health interval and overwrites the stored one (line 207) without clearing it, so an interval can leak and keep ticking while the session is active (line 196). The model admits those extra ticks as events, but no lemma here follows a schedule that includes them.
- The closures of a transcoder capture the record they were created with. The model looks the record up again by room, so after a stop and a new start in the same room, an old process's events reach the new session.
- Process write errors and the `hasLoggedWriteError`/`logCounter` flags are only logging, so they are left out.
- `stream-info.ts`, the entry point and the server configuration are not part of this model.
- `initializeMediaSoup` and the worker, `getRouterRtpCapabilities`'s return value, and `createPlainTransport` with the consumer creation of `extractMediaForStreaming` are left out. They are calls into the media engine; the model keeps only the producer selection that precedes them.
- The media engine's own checks are not modelled, such as rejecting an invalid `kind` or RTP parameters. `Produce` takes a `Kind` that is already valid.
- `handleSignal` and the `ready` broadcast only forward messages, so they are left out.
- Room and transport ids are plain strings and numbers. JavaScript object-key quirks (keys such as `__proto__`) are not modelled.
- Media.MediaRegistry.Disconnect: the engine's closing of producers when their transport closes is modelled as a direct consequence of `CloseTransport`, not as a separate event.
- Payloads that `Buffer.from` rejects are not modelled. A `Chunk` is always a byte sequence, so the path where `lastFrameTime` is refreshed (line 383) but nothing is buffered (lines 410-415) is absent.
- The rooms a connection is in when its `disconnect` event fires are taken as still joined: `DisconnectAll` reads the connection's recorded rooms. A socket.io version that leaves every room before `disconnect` fires would make the loop at lines 423-441 stop nothing. The library version is not part of this model.
- The peer lists of the room registry can be empty: `createRoom` registers a room with no peers. A room is therefore not "present exactly when it has peers"; it is deleted only when a disconnect empties it.

## Findings

| source | as written | input that shows it | evidently intended | confidence | as-written member | corrected member |
|---|---|---|---|---|---|---|
| src/handlers/stream.handler.ts:182 | every initialization retags the session `webm`, undoing the switch to `matroska` made by the fallback (line 247); when every exit is followed by the restart timer, the `matroska` branch and its test-pattern fallback (lines 250-251) are never reached | a started stream whose transcoder exits six times, each exit followed by the restart timer: the format is still `webm` and the counter cycles between 1 and 2 | initialization keeps the `matroska` tag, so after two more restarts the next exit falls back to the test pattern | not executed | StreamSessionProofs.ExitRoundsStayOnWebm | StreamSessionProofs.CorrectedExitsReachTestPattern |
| src/handlers/stream.handler.ts:169-182 | the transcoder killed by a stall restart still closes with its record active, so its close handler restarts a second time; the second restart switches `webm` to `matroska` and resets the counter, and line 182 switches back, so a stalled stream whose rounds are one health tick, the killed transcoder's close and both restart timers never reaches the test pattern. Rounds with extra ticks from a leaked health interval (lines 195-207) are outside this claim | a stream that gets no data after its start, through ten rounds of: health tick, close of the killed transcoder, the two restart timers. The handler's own timers do not keep this schedule from the third round on, because leaked intervals add ticks, so this input is a schedule of events, not a run of the handler | a stream without data ends on the test pattern | not executed | StreamSessionProofs.StalledStreamStaysOnWebm | StreamSessionProofs.CorrectedStallReachesTestPattern |
| src/handlers/stream.handler.ts:115-116 | initialization checks only that the room has a record, not that it is active, so a restart timer that fires after a stop spawns a transcoder. If the stop came at least 500 ms before the timer, nothing ever ends that transcoder. If it came in the last 500 ms of the 1 s restart delay (lines 235-237), the stop's delayed `SIGINT` (lines 342-350) kills the new transcoder instead | an active stalled session: health tick (restart scheduled), then a stop at least 500 ms before the timer, then the restart timer | a stopped session is not re-initialized | not executed | StreamSessionProofs.StaleRestartTimerSpawns | StreamSessionProofs.CorrectedTimerIgnoresStoppedSession |
| src/handlers/stream.handler.ts:180 | a restart does not clear the buffer, so the next chunk re-initializes at once (lines 386-388); the restart timer then spawns a second transcoder and overwrites the first, which stays live and is never ended | an active session just restarted with 2 or more buffered chunks: one chunk, then the restart timer | a session is initialized once per restart | not executed | StreamSessionProofs.ChunkThenTimerOrphansProcess | StreamSessionProofs.CorrectedTimerKeepsRunningProcess |

The main model follows the code as written: `StreamSessions.Initialize`, `StreamSessions.Step`, and the supervisor built on them. The corrected initialization is `StreamSessionProofs.InitializeCorrected`. It initializes only an active session that is waiting for a transcoder, and it keeps a `matroska` tag. `StreamSessionProofs.StepCorrected` uses it, and only the corrected members above are stated about it. The handler passes `-f webm` on every spawn whatever the tag. The correction therefore records only the tag the fallback chose, not the transcoder arguments that a full fix would also change. In the code as written the test-pattern fallback is still reachable when exits come back to back, before a restart timer fires (`BackToBackExitsReachTestPattern`). The first finding is about exits that are each followed by the timer.

=== FILE: chunk_buffer.dfy ===
/** The bounded FIFO that holds raw media chunks until the transcoder can take them. */
module ChunkBuffers {

  newtype byte = x: int | 0 <= x < 256

  /** One binary message received from the browser. */
  type Chunk = seq<byte>

  /** The number of bytes held in a list of chunks. */
  function TotalBytes(cs: seq<Chunk>): nat
  {
    if cs == [] then 0 else |cs[0]| + TotalBytes(cs[1..])
  }

  lemma {:induction false} TotalBytesAppend(cs: seq<Chunk>, c: Chunk)
    ensures TotalBytes(cs + [c]) == TotalBytes(cs) + |c|
  {
    if cs != [] {
      assert (cs + [c])[0] == cs[0];
      assert (cs + [c])[1..] == cs[1..] + [c];
      TotalBytesAppend(cs[1..], c);
    }
  }

  /** The sliding window of capacity `n` over a history: its last min(|s|, n) elements. */
  function Window<T>(s: seq<T>, n: nat): seq<T>
  {
    if |s| <= n then s else s[|s| - n..]
  }

  /** A window holds at most `n` elements, keeps arrival order, and ends with the newest one. */
  lemma WindowShape<T>(s: seq<T>, c: T, n: nat)
    ensures |Window(s + [c], n)| == if |s| + 1 <= n then |s| + 1 else n
    ensures n > 0 ==> Window(s + [c], n)[|Window(s + [c], n)| - 1] == c
    ensures forall i :: 0 <= i < |Window(s + [c], n)| ==>
              Window(s + [c], n)[i] == (s + [c])[|s| + 1 - |Window(s + [c], n)| + i]
  {
  }

  /** Sliding the window by one chunk is the window over the history extended by that chunk:
      the retained chunks are always the newest ones ever added. */
  lemma {:induction false} WindowSlide<T>(h: seq<T>, c: T, n: nat)
    ensures Window(Window(h, n) + [c], n) == Window(h + [c], n)
  {
    if n == 0 {
      assert Window(h + [c], n) == [];
    } else if |h| > n {
      var w := h[|h| - n..];
      assert |w + [c]| == n + 1;
      assert (w + [c])[1..] == h[|h| - n + 1..] + [c];
      assert (h + [c])[|h| + 1 - n..] == h[|h| + 1 - n..] + [c];
    }
  }

  class ChunkBuffer {
    var chunks: seq<Chunk>
    const maxSize: nat
    var totalBytes: int
    /** Every chunk added since the buffer was created or last cleared. */
    ghost var added: seq<Chunk>

    ghost predicate Valid()
      reads this
    {
      && chunks == Window(added, maxSize)
      && totalBytes == TotalBytes(chunks)
    }

    constructor (maxSize: nat)
      ensures Valid() && this.maxSize == maxSize
      ensures chunks == [] && totalBytes == 0 && added == []
    {
      this.maxSize := maxSize;
      chunks := [];
      totalBytes := 0;
      added := [];
    }

    /** Appends a chunk and drops the oldest ones while more than `maxSize` are held. */
    method Add(chunk: Chunk)
      requires Valid()
      modifies this
      ensures Valid() && added == old(added) + [chunk]
      ensures chunks == Window(old(chunks) + [chunk], maxSize)
      ensures |chunks| <= maxSize
    {
      chunks := chunks + [chunk];
      TotalBytesAppend(old(chunks), chunk);
      totalBytes := totalBytes + |chunk|;
      added := added + [chunk];
      ghost var full := chunks;
      ghost var dropped := 0;
      while |chunks| > maxSize
        invariant full == old(chunks) + [chunk] && added == old(added) + [chunk]
        invariant 0 <= dropped <= |full|
        invariant chunks == full[dropped..]
        invariant dropped > 0 ==> |chunks| >= maxSize
        invariant totalBytes == TotalBytes(chunks)
        decreases |chunks|
      {
        var removed := chunks[0];
        chunks := chunks[1..];
        totalBytes := totalBytes - |removed|;
        dropped := dropped + 1;
      }
      WindowSlide(old(added), chunk, maxSize);
    }

    /** The retained chunks, oldest first: the newest `maxSize` of those added. */
    function GetChunks(): (cs: seq<Chunk>)
      requires Valid()
      reads this
      ensures |cs| <= maxSize
      ensures cs == Window(added, maxSize)
      ensures TotalBytes(cs) == totalBytes
    {
      chunks
    }

    method Clear()
      modifies this
      ensures Valid()
      ensures chunks == [] && totalBytes == 0 && added == []
    {
      chunks := [];
      totalBytes := 0;
      added := [];
    }

    /** Empty exactly when nothing was added since creation or the last clear, or the
        capacity is zero; an empty buffer holds no bytes. */
    function IsEmpty(): (e: bool)
      requires Valid()
      reads this
      ensures e <==> added == [] || maxSize == 0
      ensures e ==> totalBytes == 0
    {
      |chunks| == 0
    }
  }
}

=== FILE: connections.dfy ===
/** The per-connection state the handlers read and write: the set of rooms the
    connection has joined (kept in join order, as a JavaScript Set iterates) and
    the `peerId`/`roomId` recorded on it by a successful room join. */
module Connections {
  import opened Results
  import Seqs

  class Connection {
    const id: string
    var rooms: seq<string>
    var peerId: Option<string>
    var roomId: Option<string>

    /** A new connection is a member of its own room only and carries no recorded data. */
    constructor (id: string)
      ensures this.id == id && rooms == [id]
      ensures peerId == None && roomId == None
    {
      this.id := id;
      rooms := [id];
      peerId := None;
      roomId := None;
    }

    /** Joining a room already joined keeps its place; a new room goes last. */
    method Join(room: string)
      modifies this`rooms
      ensures room in rooms
      ensures rooms == if room in old(rooms) then old(rooms) else old(rooms) + [room]
    {
      if room !in rooms {
        rooms := rooms + [room];
      }
    }

    /** Leaving a room removes it and keeps the order of the others. */
    method Leave(room: string)
      modifies this`rooms
      ensures room !in rooms
      ensures rooms == Seqs.Without(old(rooms), room)
    {
      rooms := Seqs.Without(rooms, room);
    }
  }
}

=== FILE: media.dfy ===
/** The media handler's registries: one router per room, transports tagged with the
    connection and room that created them, and producers in creation order. The media
    engine is replaced by a counter that hands out fresh ids. */
module Media {
  import opened Results

  type RoomId = string
  type SocketId = string
  type EngineId = nat

  datatype Kind = Audio | Video

  /** The application data attached to a transport. */
  datatype TransportTag = TransportTag(socketId: SocketId, roomId: RoomId)

  /** A producer with the application data attached to it: the transport it was
      created on, when recorded. */
  datatype Producer = Producer(id: EngineId, kind: Kind, transportId: Option<EngineId>)

  datatype MediaError = RouterNotFound | TransportNotFound | NoVideoProducer

  /** The producers chosen for streaming a room. */
  datatype Selection = Selection(video: Producer, audio: Option<Producer>)

  /** Producer ids grow along the sequence, so no id occurs twice. */
  ghost predicate Increasing(ps: seq<Producer>)
  {
    forall i, j :: 0 <= i < j < |ps| ==> ps[i].id < ps[j].id
  }

  /** The producer sits on a registered transport of the room. */
  predicate InRoom(p: Producer, transports: map<EngineId, TransportTag>, roomId: RoomId)
  {
    p.transportId.Some? && p.transportId.value in transports && transports[p.transportId.value].roomId == roomId
  }

  /** A producer of the given kind on a registered transport of the room. */
  predicate Eligible(p: Producer, transports: map<EngineId, TransportTag>, roomId: RoomId, kind: Kind)
  {
    p.kind == kind && InRoom(p, transports, roomId)
  }

  /** The first eligible producer of the sequence, if any. */
  function FirstOf(ps: seq<Producer>, transports: map<EngineId, TransportTag>, roomId: RoomId, kind: Kind): (r: Option<Producer>)
    ensures r.Some? ==> r.value in ps && Eligible(r.value, transports, roomId, kind)
  {
    if ps == [] then None
    else if Eligible(ps[0], transports, roomId, kind) then Some(ps[0])
    else FirstOf(ps[1..], transports, roomId, kind)
  }

  /** The search finds nothing exactly when no producer is eligible, and otherwise an
      eligible producer with no eligible one before it. */
  lemma {:induction false} FirstOfFinds(ps: seq<Producer>, transports: map<EngineId, TransportTag>, roomId: RoomId, kind: Kind)
    ensures var r := FirstOf(ps, transports, roomId, kind);
            r.None? <==> forall i :: 0 <= i < |ps| ==> !Eligible(ps[i], transports, roomId, kind)
    ensures var r := FirstOf(ps, transports, roomId, kind);
            r.Some? ==> exists i :: 0 <= i < |ps| && ps[i] == r.value && Eligible(ps[i], transports, roomId, kind)
                          && forall j :: 0 <= j < i ==> !Eligible(ps[j], transports, roomId, kind)
  {
    if ps != [] && !Eligible(ps[0], transports, roomId, kind) {
      FirstOfFinds(ps[1..], transports, roomId, kind);
      var r := FirstOf(ps[1..], transports, roomId, kind);
      assert forall i :: 1 <= i < |ps| ==> ps[i] == ps[1..][i - 1];
      if r.Some? {
        var k :| 0 <= k < |ps[1..]| && ps[1..][k] == r.value && Eligible(ps[1..][k], transports, roomId, kind)
                 && forall j :: 0 <= j < k ==> !Eligible(ps[1..][j], transports, roomId, kind);
        assert ps[k + 1] == r.value;
      }
    }
  }

  /** Selection for streaming: the first video producer of the room, required, and
      the first audio producer of the room, when there is one. */
  function Selected(ps: seq<Producer>, transports: map<EngineId, TransportTag>, roomId: RoomId): (r: Result<Selection, MediaError>)
    ensures r.Failure? <==> forall i :: 0 <= i < |ps| ==> !Eligible(ps[i], transports, roomId, Video)
    ensures r.Failure? ==> r.error == NoVideoProducer
    ensures r.Success? ==> r.value.video in ps && Eligible(r.value.video, transports, roomId, Video)
    ensures r.Success? ==> (r.value.audio.None? <==> forall i :: 0 <= i < |ps| ==> !Eligible(ps[i], transports, roomId, Audio))
    ensures r.Success? && r.value.audio.Some? ==> r.value.audio.value in ps && Eligible(r.value.audio.value, transports, roomId, Audio)
  {
    FirstOfFinds(ps, transports, roomId, Video);
    FirstOfFinds(ps, transports, roomId, Audio);
    match FirstOf(ps, transports, roomId, Video)
    case None => Failure(NoVideoProducer)
    case Some(video) => Success(Selection(video, FirstOf(ps, transports, roomId, Audio)))
  }

  /** The search over a concatenation finds the first part's match, or else the second's. */
  lemma {:induction false} FirstOfConcat(a: seq<Producer>, b: seq<Producer>, transports: map<EngineId, TransportTag>,
                                         roomId: RoomId, kind: Kind)
    ensures FirstOf(a + b, transports, roomId, kind)
            == if FirstOf(a, transports, roomId, kind).Some? then FirstOf(a, transports, roomId, kind)
               else FirstOf(b, transports, roomId, kind)
  {
    if a == [] {
      assert a + b == b;
    } else {
      assert (a + b)[0] == a[0];
      assert (a + b)[1..] == a[1..] + b;
      FirstOfConcat(a[1..], b, transports, roomId, kind);
    }
  }

  /** One more element is looked at only when the prefix holds no match. */
  lemma FirstOfExtend(ps: seq<Producer>, i: nat, transports: map<EngineId, TransportTag>, roomId: RoomId, kind: Kind)
    requires i < |ps|
    ensures FirstOf(ps[..i + 1], transports, roomId, kind)
            == if FirstOf(ps[..i], transports, roomId, kind).Some? then FirstOf(ps[..i], transports, roomId, kind)
               else if Eligible(ps[i], transports, roomId, kind) then Some(ps[i]) else None
  {
    assert ps[..i + 1] == ps[..i] + [ps[i]];
    FirstOfConcat(ps[..i], [ps[i]], transports, roomId, kind);
  }

  lemma WholePrefix<T>(s: seq<T>)
    ensures s[..|s|] == s
  {
  }

  /** Once a prefix holds a match, the rest of the sequence cannot change it: stopping
      the scan early is sound. */
  lemma FirstOfPrefix(ps: seq<Producer>, n: nat, transports: map<EngineId, TransportTag>, roomId: RoomId, kind: Kind)
    requires n <= |ps| && FirstOf(ps[..n], transports, roomId, kind).Some?
    ensures FirstOf(ps, transports, roomId, kind) == FirstOf(ps[..n], transports, roomId, kind)
  {
    assert ps == ps[..n] + ps[n..];
    FirstOfConcat(ps[..n], ps[n..], transports, roomId, kind);
  }

  /** A video producer created on a transport of a room that had none makes selection
      succeed with that producer; audio selection is unaffected. */
  lemma ProduceThenSelect(ps: seq<Producer>, transports: map<EngineId, TransportTag>, roomId: RoomId, p: Producer)
    requires Selected(ps, transports, roomId) == Failure(NoVideoProducer)
    requires p.kind == Video && InRoom(p, transports, roomId)
    ensures Selected(ps + [p], transports, roomId) == Success(Selection(p, FirstOf(ps, transports, roomId, Audio)))
  {
    FirstOfConcat(ps, [p], transports, roomId, Video);
    FirstOfConcat(ps, [p], transports, roomId, Audio);
    assert FirstOf([p], transports, roomId, Audio) == None;
  }

  /** The producers that remain once the transports of `closed` are closed: each closed
      transport's producers receive `transportclose` and are deleted. */
  function Detach(ps: seq<Producer>, closed: set<EngineId>): (r: seq<Producer>)
    ensures forall p :: p in r ==> p in ps && !(p.transportId.Some? && p.transportId.value in closed)
    ensures forall p :: p in ps && !(p.transportId.Some? && p.transportId.value in closed) ==> p in r
  {
    if ps == [] then []
    else
      var rest := Detach(ps[1..], closed);
      assert ps == [ps[0]] + ps[1..];
      if ps[0].transportId.Some? && ps[0].transportId.value in closed then rest
      else [ps[0]] + rest
  }

  /** Closing no transport keeps every producer. */
  lemma {:induction false} DetachNothing(ps: seq<Producer>)
    ensures Detach(ps, {}) == ps
  {
    if ps != [] {
      DetachNothing(ps[1..]);
      assert ps == [ps[0]] + ps[1..];
    }
  }

  /** The tail of an increasing sequence is increasing and above its head. */
  lemma IncreasingTail(ps: seq<Producer>)
    requires Increasing(ps) && ps != []
    ensures Increasing(ps[1..])
    ensures forall p :: p in ps[1..] ==> ps[0].id < p.id
  {
    forall p | p in ps[1..] ensures ps[0].id < p.id {
      var k :| 0 <= k < |ps[1..]| && ps[1..][k] == p;
      assert ps[k + 1] == p;
    }
  }

  /** An element above every id of an increasing sequence may go in front. */
  lemma IncreasingCons(p: Producer, ps: seq<Producer>)
    requires Increasing(ps) && forall q :: q in ps ==> p.id < q.id
    ensures Increasing([p] + ps)
  {
    var s := [p] + ps;
    forall i, j | 0 <= i < j < |s| ensures s[i].id < s[j].id {
      assert s[j] == ps[j - 1];
      if i > 0 {
        assert s[i] == ps[i - 1];
      }
    }
  }

  /** Closing transports keeps the creation order of the surviving producers, so
      their ids stay distinct. */
  lemma {:induction false} DetachIncreasing(ps: seq<Producer>, closed: set<EngineId>)
    requires Increasing(ps)
    ensures Increasing(Detach(ps, closed))
  {
    if ps != [] {
      IncreasingTail(ps);
      DetachIncreasing(ps[1..], closed);
      if !(ps[0].transportId.Some? && ps[0].transportId.value in closed) {
        IncreasingCons(ps[0], Detach(ps[1..], closed));
      }
    }
  }

  /** Closing transports one set after another is closing their union. */
  lemma {:induction false} DetachTwice(ps: seq<Producer>, a: set<EngineId>, b: set<EngineId>)
    ensures Detach(Detach(ps, a), b) == Detach(ps, a + b)
  {
    if ps != [] {
      DetachTwice(ps[1..], a, b);
      var p := ps[0];
      if !(p.transportId.Some? && p.transportId.value in a) {
        assert Detach(ps, a) == [p] + Detach(ps[1..], a);
        assert ([p] + Detach(ps[1..], a))[1..] == Detach(ps[1..], a);
      }
    }
  }

  /** The producers without the one with id `producerId`. */
  function Drop(ps: seq<Producer>, producerId: EngineId): (r: seq<Producer>)
    ensures forall p :: p in r <==> p in ps && p.id != producerId
  {
    if ps == [] then []
    else
      var rest := Drop(ps[1..], producerId);
      assert ps == [ps[0]] + ps[1..];
      if ps[0].id == producerId then rest else [ps[0]] + rest
  }

  /** In an increasing sequence the id occurs at most once: deleting it keeps the
      order and removes exactly one producer when it was there. */
  lemma {:induction false} DropExactlyOne(ps: seq<Producer>, producerId: EngineId)
    requires Increasing(ps)
    ensures Increasing(Drop(ps, producerId))
    ensures |Drop(ps, producerId)| == if exists p :: p in ps && p.id == producerId then |ps| - 1 else |ps|
  {
    if ps != [] {
      IncreasingTail(ps);
      DropExactlyOne(ps[1..], producerId);
      assert ps == [ps[0]] + ps[1..];
      if ps[0].id == producerId {
        assert !exists p :: p in ps[1..] && p.id == producerId;
      } else {
        IncreasingCons(ps[0], Drop(ps[1..], producerId));
        assert (exists p :: p in ps && p.id == producerId) == (exists p :: p in ps[1..] && p.id == producerId);
      }
    }
  }

  /** The transports that stay registered when the connection `socketId` leaves. */
  function KeptTransports(transports: map<EngineId, TransportTag>, socketId: SocketId): (r: map<EngineId, TransportTag>)
    ensures forall t :: t in r <==> t in transports && transports[t].socketId != socketId
    ensures forall t :: t in r ==> r[t] == transports[t]
  {
    map t | t in transports && transports[t].socketId != socketId :: transports[t]
  }

  /** The transports of the connection `socketId`. */
  function TransportsOf(transports: map<EngineId, TransportTag>, socketId: SocketId): (r: set<EngineId>)
    ensures forall t :: t in r <==> t in transports && transports[t].socketId == socketId
  {
    set t | t in transports && transports[t].socketId == socketId
  }

  /** A disconnect splits the transports in two: those it closes and those it keeps. */
  lemma TransportsPartition(transports: map<EngineId, TransportTag>, socketId: SocketId)
    ensures KeptTransports(transports, socketId) == transports - TransportsOf(transports, socketId)
    ensures KeptTransports(transports, socketId).Keys !! TransportsOf(transports, socketId)
    ensures KeptTransports(transports, socketId).Keys + TransportsOf(transports, socketId) == transports.Keys
  {
  }

  class MediaRegistry {
    var routers: map<RoomId, EngineId>
    var transports: map<EngineId, TransportTag>
    var producers: seq<Producer>
    /** The next id the engine hands out. */
    var nextId: nat

    /** Ids come from the counter, producer ids are distinct and in creation order, and
        every producer sits on a registered transport. */
    ghost predicate Valid()
      reads this
    {
      && (forall r :: r in routers ==> routers[r] < nextId)
      && (forall t :: t in transports ==> t < nextId)
      && (forall i :: 0 <= i < |producers| ==> producers[i].id < nextId)
      && (forall i :: 0 <= i < |producers| ==>
            producers[i].transportId.Some? && producers[i].transportId.value in transports)
      && Increasing(producers)
    }

    constructor ()
      ensures Valid() && routers == map[] && transports == map[] && producers == [] && nextId == 0
    {
      routers := map[];
      transports := map[];
      producers := [];
      nextId := 0;
    }

    /** The engine creates an object and hands out a fresh id. */
    method FreshId() returns (id: EngineId)
      requires Valid()
      modifies this`nextId
      ensures Valid() && id == old(nextId) && nextId == id + 1
    {
      id := nextId;
      nextId := nextId + 1;
    }

    /** Returns the room's router, creating and storing one only when the room has
        none, so a room never has two routers. */
    method CreateRouter(roomId: RoomId) returns (router: EngineId)
      requires Valid()
      modifies this`routers, this`nextId
      ensures Valid() && roomId in routers && routers[roomId] == router
      ensures roomId in old(routers) ==> router == old(routers)[roomId] && routers == old(routers) && nextId == old(nextId)
      ensures roomId !in old(routers) ==> router == old(nextId) && routers == old(routers)[roomId := router]
    {
      if roomId in routers {
        return routers[roomId];
      }
      router := FreshId();
      routers := routers[roomId := router];
    }

    /** A transport for a room with a router, tagged with the connection and the room
        and stored under its fresh id; without a router, an error and no change. */
    method CreateWebRtcTransport(socketId: SocketId, roomId: RoomId) returns (r: Result<EngineId, MediaError>)
      requires Valid()
      modifies this`transports, this`nextId
      ensures Valid()
      ensures roomId !in old(routers) ==>
        r == Failure(RouterNotFound) && transports == old(transports) && nextId == old(nextId)
      ensures roomId in old(routers) ==>
        && r == Success(old(nextId)) && old(nextId) !in old(transports)
        && transports == old(transports)[old(nextId) := TransportTag(socketId, roomId)]
    {
      if roomId !in routers {
        return Failure(RouterNotFound);
      }
      var transportId := FreshId();
      transports := transports[transportId := TransportTag(socketId, roomId)];
      r := Success(transportId);
    }

    /** Connecting a transport only checks that it is registered. */
    method ConnectWebRtcTransport(transportId: EngineId) returns (r: Result<(), MediaError>)
      ensures r.Failure? <==> transportId !in transports
      ensures r.Failure? ==> r.error == TransportNotFound
    {
      if transportId !in transports {
        return Failure(TransportNotFound);
      }
      r := Success(());
    }

    /** A producer on a registered transport, stored last under its fresh id with the
        transport recorded; an unknown transport is an error and changes nothing. */
    method Produce(transportId: EngineId, kind: Kind) returns (r: Result<EngineId, MediaError>)
      requires Valid()
      modifies this`producers, this`nextId
      ensures Valid()
      ensures transportId !in transports ==>
        r == Failure(TransportNotFound) && producers == old(producers) && nextId == old(nextId)
      ensures transportId in transports ==>
        && r == Success(old(nextId))
        && producers == old(producers) + [Producer(old(nextId), kind, Some(transportId))]
    {
      if transportId !in transports {
        return Failure(TransportNotFound);
      }
      var producerId := FreshId();
      producers := producers + [Producer(producerId, kind, Some(transportId))];
      r := Success(producerId);
    }

    /** The `transportclose` listener of a producer: exactly that producer is deleted. */
    method ProducerTransportClosed(producerId: EngineId)
      requires Valid()
      modifies this`producers
      ensures Valid() && producers == Drop(old(producers), producerId)
    {
      DropExactlyOne(producers, producerId);
      producers := Drop(producers, producerId);
    }

    /** Closes and deletes a transport; the engine then closes its producers, whose
        `transportclose` listeners delete them. */
    method CloseTransport(transportId: EngineId)
      requires Valid() && transportId in transports
      modifies this`transports, this`producers
      ensures Valid()
      ensures transports == old(transports) - {transportId}
      ensures producers == Detach(old(producers), {transportId})
    {
      DetachIncreasing(producers, {transportId});
      transports := transports - {transportId};
      producers := Detach(producers, {transportId});
      assert forall i :: 0 <= i < |producers| ==> producers[i] in old(producers);
    }

    /** A connection leaves: each of its transports is closed and deleted, which
        deletes the producers on it; every other transport stays. */
    method Disconnect(socketId: SocketId)
      requires Valid()
      modifies this`transports, this`producers
      ensures Valid()
      ensures transports == KeptTransports(old(transports), socketId)
      ensures producers == Detach(old(producers), TransportsOf(old(transports), socketId))
    {
      ghost var ts := transports;
      ghost var ps := producers;
      var pending := transports.Keys;
      ghost var closed: set<EngineId> := {};
      DetachNothing(ps);
      while pending != {}
        invariant Valid()
        invariant pending <= ts.Keys && closed == TransportsOf(ts, socketId) - pending
        invariant transports == map t | t in ts && (t in pending || ts[t].socketId != socketId) :: ts[t]
        invariant producers == Detach(ps, closed)
        decreases pending
      {
        var t :| t in pending;
        if transports[t].socketId == socketId {
          DetachTwice(ps, closed, {t});
          CloseTransport(t);
          closed := closed + {t};
        }
        pending := pending - {t};
      }
      assert closed == TransportsOf(ts, socketId);
      assert transports == KeptTransports(ts, socketId);
    }

    /** The scan of the streaming extraction: producers in creation order, skipping
        those without a registered transport of the room, keeping the first video and
        the first audio one and stopping once both are found; no video is an error. */
    method SelectProducers(roomId: RoomId) returns (r: Result<Selection, MediaError>)
      ensures r == Selected(producers, transports, roomId)
    {
      var video: Option<Producer> := None;
      var audio: Option<Producer> := None;
      var i := 0;
      while i < |producers|
        invariant 0 <= i <= |producers|
        invariant video == FirstOf(producers[..i], transports, roomId, Video)
        invariant audio == FirstOf(producers[..i], transports, roomId, Audio)
      {
        var p := producers[i];
        FirstOfExtend(producers, i, transports, roomId, Video);
        FirstOfExtend(producers, i, transports, roomId, Audio);
        if p.transportId.Some? && p.transportId.value in transports {
          if transports[p.transportId.value].roomId == roomId {
            if p.kind == Video && video.None? {
              video := Some(p);
            } else if p.kind == Audio && audio.None? {
              audio := Some(p);
            }
          }
        }
        if video.Some? && audio.Some? {
          FirstOfPrefix(producers, i + 1, transports, roomId, Video);
          FirstOfPrefix(producers, i + 1, transports, roomId, Audio);
          break;
        }
        i := i + 1;
      }
      WholePrefix(producers);
      if video.None? {
        return Failure(NoVideoProducer);
      }
      r := Success(Selection(video.value, audio));
    }
  }
}

=== FILE: results.dfy ===
/** Optional values and error-carrying results shared by the registries. */
module Results {

  datatype Option<+T> = None | Some(value: T)

  /** The outcome of a handler that either answers the caller or reports an error to it. */
  datatype Result<+T, +E> = Success(value: T) | Failure(error: E)
}

=== FILE: rooms.dfy ===
/** The room registry of the room handler: a map from room id to the ordered list of
    peer ids that joined it, changed by room creation, joins and disconnects. */
module Rooms {
  import opened Results
  import opened Seqs
  import opened Connections

  type RoomId = string
  type PeerId = string
  type Registry = map<RoomId, seq<PeerId>>

  datatype RoomError = RoomNotFound

  /** A join: refused for a room that is not registered, otherwise the peer goes
      last in the room's list, even when it is already there. */
  function Joined(rooms: Registry, roomId: RoomId, peerId: PeerId): (r: Result<Registry, RoomError>)
    ensures r.Failure? <==> roomId !in rooms
    ensures r.Success? ==> r.value.Keys == rooms.Keys && r.value[roomId] == rooms[roomId] + [peerId]
    ensures r.Success? ==> forall k :: k in rooms && k != roomId ==> r.value[k] == rooms[k]
  {
    if roomId in rooms then Success(rooms[roomId := rooms[roomId] + [peerId]]) else Failure(RoomNotFound)
  }

  /** A departure: every occurrence of the peer leaves the room's list, and a room
      whose list becomes empty is deleted; an unregistered room is left alone. */
  function Departed(rooms: Registry, roomId: RoomId, peerId: PeerId): (r: Registry)
    ensures roomId !in rooms ==> r == rooms
    ensures roomId in r ==> peerId !in r[roomId] && r[roomId] != []
    ensures roomId in rooms && roomId !in r ==> forall i :: 0 <= i < |rooms[roomId]| ==> rooms[roomId][i] == peerId
    ensures r.Keys <= rooms.Keys && forall k :: k in rooms && k != roomId ==> k in r && r[k] == rooms[k]
  {
    if roomId !in rooms then rooms
    else
      var rest := Without(rooms[roomId], peerId);
      if rest == [] then
        WithoutEmpty(rooms[roomId], peerId);
        rooms - {roomId}
      else rooms[roomId := rest]
  }

  /** The recorded values a disconnect acts on, when both are set and non-empty
      (JavaScript truthiness of strings). */
  predicate Truthy(s: Option<string>)
  {
    s.Some? && s.value != ""
  }

  /** A peer that joined a registered room it was not in and then left restores the
      registry, except that a room it was the only member of is now deleted. */
  lemma JoinThenDepart(rooms: Registry, roomId: RoomId, peerId: PeerId)
    requires roomId in rooms && peerId !in rooms[roomId]
    ensures Joined(rooms, roomId, peerId).Success?
    ensures Departed(Joined(rooms, roomId, peerId).value, roomId, peerId)
            == if rooms[roomId] == [] then rooms - {roomId} else rooms
  {
    var list := rooms[roomId];
    var joined := Joined(rooms, roomId, peerId).value;
    assert joined == rooms[roomId := list + [peerId]];
    assert Without(joined[roomId], peerId) == list by {
      WithoutAppend(list, [peerId], peerId);
      WithoutAbsent(list, peerId);
      WithoutSingle(peerId, peerId);
      assert list + [] == list;
    }
    if list != [] {
      assert Departed(joined, roomId, peerId) == joined[roomId := list];
      assert joined[roomId := list] == rooms[roomId := list];
      assert rooms[roomId := list] == rooms;
    }
  }

  /** Joins keep duplicates: a peer that joined twice is in the list twice more. */
  lemma JoinTwiceCountsTwice(rooms: Registry, roomId: RoomId, peerId: PeerId)
    requires roomId in rooms
    ensures Joined(Joined(rooms, roomId, peerId).value, roomId, peerId).Success?
    ensures var twice := Joined(Joined(rooms, roomId, peerId).value, roomId, peerId).value;
            multiset(twice[roomId])[peerId] == multiset(rooms[roomId])[peerId] + 2
  {
    var twice := Joined(Joined(rooms, roomId, peerId).value, roomId, peerId).value;
    assert twice[roomId] == rooms[roomId] + [peerId] + [peerId];
  }

  /** A departure removes the peer however often it joined, and no other peer of the
      room loses or gains an occurrence. */
  lemma DepartRemovesEveryOccurrence(rooms: Registry, roomId: RoomId, peerId: PeerId, other: PeerId)
    requires roomId in rooms && other != peerId
    ensures var r := Departed(rooms, roomId, peerId);
            roomId in r ==> multiset(r[roomId])[other] == multiset(rooms[roomId])[other]
    ensures var r := Departed(rooms, roomId, peerId);
            roomId !in r ==> multiset(rooms[roomId])[other] == 0
  {
    WithoutCounts(rooms[roomId], peerId, other);
    var rest := Without(rooms[roomId], peerId);
    if rest == [] {
      assert multiset(rest)[other] == 0;
    }
  }

  /** A second departure of the same peer changes nothing. */
  lemma DepartIdempotent(rooms: Registry, roomId: RoomId, peerId: PeerId)
    ensures Departed(Departed(rooms, roomId, peerId), roomId, peerId) == Departed(rooms, roomId, peerId)
  {
    var once := Departed(rooms, roomId, peerId);
    if roomId in once {
      WithoutAbsent(once[roomId], peerId);
      assert once[roomId := once[roomId]] == once;
    }
  }

  class RoomRegistry {
    var rooms: Registry

    constructor ()
      ensures rooms == map[]
    {
      rooms := map[];
    }

    /** Registers the new room id (the generated UUID, a parameter here) with no peers
        and joins the connection to it. */
    method CreateRoom(conn: Connection, roomId: RoomId)
      modifies this, conn`rooms
      ensures rooms == old(rooms)[roomId := []]
      ensures conn.rooms == if roomId in old(conn.rooms) then old(conn.rooms) else old(conn.rooms) + [roomId]
    {
      conn.Join(roomId);
      rooms := rooms[roomId := []];
    }

    /** A join request: unknown rooms are refused and nothing changes; otherwise the
        peer is appended, the connection joins the room and records the room and peer
        ids, and the whole updated list is reported. */
    method JoinedRoom(conn: Connection, roomId: RoomId, peerId: PeerId) returns (r: Result<seq<PeerId>, RoomError>)
      modifies this, conn`rooms, conn`peerId, conn`roomId
      ensures Joined(old(rooms), roomId, peerId).Failure? ==>
        && r == Failure(RoomNotFound) && rooms == old(rooms)
        && conn.rooms == old(conn.rooms) && conn.peerId == old(conn.peerId) && conn.roomId == old(conn.roomId)
      ensures Joined(old(rooms), roomId, peerId).Success? ==>
        && rooms == Joined(old(rooms), roomId, peerId).value
        && r == Success(rooms[roomId])
        && conn.peerId == Some(peerId) && conn.roomId == Some(roomId)
        && conn.rooms == if roomId in old(conn.rooms) then old(conn.rooms) else old(conn.rooms) + [roomId]
    {
      if roomId !in rooms {
        return Failure(RoomNotFound);
      }
      rooms := rooms[roomId := rooms[roomId] + [peerId]];
      conn.Join(roomId);
      conn.peerId := Some(peerId);
      conn.roomId := Some(roomId);
      r := Success(rooms[roomId]);
    }

    /** A disconnect: with a room and a peer id recorded on the connection, the peer
        departs that room; otherwise nothing changes. */
    method HandleDisconnect(conn: Connection)
      modifies this
      ensures rooms == if Truthy(conn.roomId) && Truthy(conn.peerId)
                       then Departed(old(rooms), conn.roomId.value, conn.peerId.value)
                       else old(rooms)
    {
      if !Truthy(conn.roomId) || !Truthy(conn.peerId) {
        return;
      }
      var roomId := conn.roomId.value;
      var peerId := conn.peerId.value;
      if roomId in rooms {
        rooms := rooms[roomId := Without(rooms[roomId], peerId)];
        if |rooms[roomId]| == 0 {
          rooms := rooms - {roomId};
        }
      }
    }
  }
}

=== FILE: seqs.dfy ===
/** Facts about removing every occurrence of a value from a sequence. */
module Seqs {

  /** `s` without any occurrence of `x`, the remaining elements in their original order:
      what `list.filter(y => y !== x)` computes. */
  function Without<T(==)>(s: seq<T>, x: T): (r: seq<T>)
    ensures x !in r
    ensures multiset(r) <= multiset(s)
  {
    if s == [] then []
    else
      assert s == [s[0]] + s[1..];
      (if s[0] == x then [] else [s[0]]) + Without(s[1..], x)
  }

  /** Removal distributes over concatenation: the relative order of the survivors is kept. */
  lemma {:induction false} WithoutAppend<T>(a: seq<T>, b: seq<T>, x: T)
    ensures Without(a + b, x) == Without(a, x) + Without(b, x)
  {
    if a == [] {
      assert a + b == b;
    } else {
      assert (a + b)[0] == a[0];
      assert (a + b)[1..] == a[1..] + b;
      WithoutAppend(a[1..], b, x);
    }
  }

  /** Removing a value that does not occur changes nothing. */
  lemma {:induction false} WithoutAbsent<T>(s: seq<T>, x: T)
    requires x !in s
    ensures Without(s, x) == s
  {
    if s != [] {
      assert s == [s[0]] + s[1..];
      WithoutAbsent(s[1..], x);
    }
  }

  /** Every other value keeps its number of occurrences; `x` has none left. */
  lemma {:induction false} WithoutCounts<T>(s: seq<T>, x: T, y: T)
    ensures multiset(Without(s, x))[x] == 0
    ensures y != x ==> multiset(Without(s, x))[y] == multiset(s)[y]
  {
    if s != [] {
      assert s == [s[0]] + s[1..];
      WithoutCounts(s[1..], x, y);
    }
  }

  /** Nothing survives the removal only when every element was `x`. */
  lemma {:induction false} WithoutEmpty<T>(s: seq<T>, x: T)
    ensures Without(s, x) == [] <==> forall i :: 0 <= i < |s| ==> s[i] == x
  {
    if s != [] {
      assert s == [s[0]] + s[1..];
      WithoutEmpty(s[1..], x);
      assert forall i :: 1 <= i < |s| ==> s[i] == s[1..][i - 1];
    }
  }

  /** A one-element sequence keeps its element unless it is `x`. */
  lemma WithoutSingle<T>(y: T, x: T)
    ensures Without([y], x) == if y == x then [] else [y]
  {
    assert [y][1..] == [];
  }
}

=== FILE: stream_session_proofs.dfy ===
/** What the session transitions guarantee: an invariant of every reachable
    session, the restart policy over many events, the buffering threshold, and
    two places where the handler as written departs from its evident intent. */
module StreamSessionProofs {
  import opened Results
  import opened ChunkBuffers
  import opened StreamSessions

  /** Facts that hold of every session a start request can lead to. */
  ghost predicate Consistent(s: SessionState)
  {
    && s.restartCount <= RestartLimit
    && |s.chunks| <= BufferCapacity
    && s.format != Unset
    && (s.initialized ==> s.process.Some?)
    // the `matroska` tag never survives to a running transcoder
    && (s.format == Matroska ==> !s.initialized)
    // the format tag names the feed of the current process
    && ((s.process.Some? && s.process.value.feed == PatternSource) <==> s.format == TestPattern)
  }

  lemma StartedConsistent(now: int, pid: nat)
    ensures Consistent(Started(now, pid))
  {
  }

  lemma StepConsistent(s: SessionState, e: Event, pid: nat)
    requires Consistent(s)
    ensures Consistent(Step(s, e, pid))
  {
    match e
    case ChunkArrived(c, now) =>
      WindowShape(s.chunks, c, BufferCapacity);
    case _ =>
  }

  /** Every session reached from a start by any events is consistent. */
  lemma {:induction false} RunConsistent(s: SessionState, es: seq<Event>, pid: nat)
    requires Consistent(s)
    ensures Consistent(Run(s, es, pid))
    decreases |es|
  {
    if es != [] {
      StepConsistent(s, es[0], pid);
      RunConsistent(Step(s, es[0], pid), es[1..], pid + 1);
    }
  }

  /** The restart counter goes down only when a transcoder exit abandons `webm` for
      `matroska`; it is reset to zero there and the restart that follows leaves it at one. */
  lemma CountDropsOnlyOnFormatSwitch(s: SessionState, e: Event, pid: nat)
    requires Step(s, e, pid).restartCount < s.restartCount
    ensures e.TranscoderClosed? && s.isActive
    ensures s.format == Webm && s.restartCount >= FormatRetryLimit
    ensures Step(s, e, pid).format == Matroska && Step(s, e, pid).restartCount == 1
  {
  }

  /** Until initialized, an active session only buffers; the chunk that brings the
      buffer to the threshold initializes it and replays the whole buffer in order. */
  lemma ChunkBeforeInitialization(s: SessionState, c: Chunk, now: int, pid: nat)
    requires s.isActive && !s.initialized
    ensures var t := Step(s, ChunkArrived(c, now), pid);
      && t.lastFrameTime == now
      && t.chunks == Window(s.chunks + [c], BufferCapacity)
      && (t.initialized <==> |Window(s.chunks + [c], BufferCapacity)| >= InitThreshold)
      && (t.initialized ==> t.format == Webm && t.process == Some(Process(pid, PipedInput, t.chunks, true)))
      && (!t.initialized ==> t.process == s.process)
  {
  }

  /** Once initialized, a chunk is buffered and written exactly once to a live process. */
  lemma ChunkWhileRunning(s: SessionState, c: Chunk, now: int, pid: nat)
    requires s.isActive && s.initialized && s.process.Some? && s.process.value.live
    ensures var t := Step(s, ChunkArrived(c, now), pid);
      && t.chunks == Window(s.chunks + [c], BufferCapacity)
      && t.process == Some(s.process.value.(input := s.process.value.input + [c]))
      && t.initialized == s.initialized && t.format == s.format && t.restartCount == s.restartCount
  {
  }

  /** An active session waiting for a transcoder with an empty buffer, as after a
      restart of a stream that had buffered nothing: two chunks are only buffered, and
      the third starts the transcoder with all three, oldest first. A restart keeps
      the buffer, so a stream that had data needs fewer chunks; see
      `ChunkThenTimerOrphansProcess`. */
  lemma ThresholdScenario(s: SessionState, c1: Chunk, c2: Chunk, c3: Chunk, pid: nat)
    requires s.isActive && !s.initialized && s.chunks == []
    ensures var t2 := Run(s, [ChunkArrived(c1, 1), ChunkArrived(c2, 2)], pid);
      && !t2.initialized && t2.process == s.process && t2.chunks == [c1, c2]
    ensures var t3 := Run(s, [ChunkArrived(c1, 1), ChunkArrived(c2, 2), ChunkArrived(c3, 3)], pid);
      && t3.initialized && t3.process == Some(Process(pid + 2, PipedInput, [c1, c2, c3], true))
  {
    var t1 := Step(s, ChunkArrived(c1, 1), pid);
    assert s.chunks + [c1] == [c1];
    assert t1.chunks == [c1] && !t1.initialized && t1.process == s.process;
    var t2 := Step(t1, ChunkArrived(c2, 2), pid + 1);
    assert t1.chunks + [c2] == [c1, c2];
    assert t2.chunks == [c1, c2] && !t2.initialized && t2.process == s.process;
    var t3 := Step(t2, ChunkArrived(c3, 3), pid + 2);
    assert t2.chunks + [c3] == [c1, c2, c3];
    assert t3.process == Some(Process(pid + 2, PipedInput, [c1, c2, c3], true));
    var es := [ChunkArrived(c1, 1), ChunkArrived(c2, 2), ChunkArrived(c3, 3)];
    assert es[1..] == [ChunkArrived(c2, 2), ChunkArrived(c3, 3)];
    assert es[1..][1..] == [ChunkArrived(c3, 3)];
    assert Run(s, es, pid) == Run(t1, es[1..], pid + 1) == Run(t2, es[1..][1..], pid + 2);
    assert Run(t2, es[1..][1..], pid + 2) == Run(t3, [], pid + 3) == t3;
    var ds := [ChunkArrived(c1, 1), ChunkArrived(c2, 2)];
    assert ds[1..] == [ChunkArrived(c2, 2)];
    assert Run(s, ds, pid) == Run(t1, ds[1..], pid + 1) == Run(t2, [], pid + 2);
  }

  /** A stop or disconnect deactivates an active session and ends its process; on an
      inactive one it changes nothing. */
  lemma StopEndsSession(s: SessionState, e: Event, pid: nat)
    requires e == StopRequested || e == OwnerDisconnected
    ensures var t := Step(s, e, pid);
      && !t.isActive
      && (s.isActive ==> !t.initialized && (t.process.Some? ==> !t.process.value.live))
      && (!s.isActive ==> t == s)
      && t.chunks == s.chunks && t.restartCount == s.restartCount
  {
  }

  /** The health check restarts only after the stall window, and falls back to the
      test pattern instead once five restarts were made. */
  lemma HealthTickRestartsOnlyOnStall(s: SessionState, now: int, pid: nat)
    ensures now - s.lastFrameTime <= StallWindowMs ==> Step(s, HealthTick(now), pid) == s
    ensures s.isActive && now - s.lastFrameTime > StallWindowMs && s.restartCount < RestartLimit ==>
      Step(s, HealthTick(now), pid).restartCount == s.restartCount + 1
      && !Step(s, HealthTick(now), pid).initialized
    ensures s.isActive && now - s.lastFrameTime > StallWindowMs && s.restartCount >= RestartLimit ==>
      Step(s, HealthTick(now), pid).format == TestPattern
      && Step(s, HealthTick(now), pid).process == Some(Process(pid, PatternSource, [], true))
  {
  }

  // ---------------------------------------------------------------------------
  // The corrected initialization: only a session that is active and waiting for a
  // transcoder is initialized, and the `matroska` tag chosen by the fallback is kept.

  function InitializeCorrected(s: SessionState, pid: nat): (r: SessionState)
    ensures !s.isActive || s.initialized ==> r == s
    ensures s.isActive && !s.initialized ==>
      && r.initialized && r.format == (if s.format == Matroska then Matroska else Webm)
      && r.process == Some(Process(pid, PipedInput, s.chunks, true))
  {
    if !s.isActive || s.initialized then s
    else s.(process := Some(Process(pid, PipedInput, s.chunks, true)), initialized := true,
            format := if s.format == Matroska then Matroska else Webm)
  }

  /** A chunk, with the corrected initialization on the threshold path. */
  function ReceivedCorrected(s: SessionState, c: Chunk, now: int, pid: nat): SessionState
  {
    if s.isActive && !s.initialized then
      var b := s.(lastFrameTime := now, chunks := Window(s.chunks + [c], BufferCapacity));
      if |b.chunks| >= InitThreshold then InitializeCorrected(b, pid) else b
    else Received(s, c, now, pid)
  }

  /** The session transitions with the corrected initialization; every other event
      is handled as written. */
  function StepCorrected(s: SessionState, e: Event, pid: nat): (r: SessionState)
    ensures !e.RestartTimerFired? && !e.ChunkArrived? ==> r == Step(s, e, pid)
  {
    match e
    case RestartTimerFired => InitializeCorrected(s, pid)
    case ChunkArrived(c, now) => ReceivedCorrected(s, c, now, pid)
    case _ => Step(s, e, pid)
  }

  /** The correction changes only what the findings are about: the sessions not
      waiting for a transcoder, and the `matroska` tag. */
  lemma CorrectionScope(s: SessionState, pid: nat)
    ensures s.isActive && !s.initialized && s.format != Matroska ==> InitializeCorrected(s, pid) == Initialize(s, pid)
    ensures !s.isActive || s.initialized ==> InitializeCorrected(s, pid) == s
    ensures s.isActive && !s.initialized && s.format == Matroska ==>
      InitializeCorrected(s, pid) == Initialize(s, pid).(format := Matroska)
  {
  }

  function CurrentPid(s: SessionState): nat
  {
    if s.process.Some? then s.process.value.pid else 0
  }

  // ---------------------------------------------------------------------------
  // Finding: the format fallback, through exits.

  /** The running transcoder exits, then the restart timer re-initializes, `n` times. */
  function ExitRounds(s: SessionState, n: nat, pid: nat): SessionState
    decreases n
  {
    if n == 0 then s
    else ExitRounds(Step(Step(s, TranscoderClosed(CurrentPid(s)), pid), RestartTimerFired, pid + 1), n - 1, pid + 2)
  }

  /** As written, initialization always retags the session `webm`, so the switch to
      `matroska` is undone at once: a transcoder that keeps exiting, each exit
      followed by the restart timer, is restarted forever with the counter cycling
      through one and two, and the test pattern is never reached. */
  lemma {:induction false} ExitRoundsStayOnWebm(s: SessionState, n: nat, pid: nat)
    requires s.isActive && s.format == Webm && s.restartCount <= FormatRetryLimit
    ensures var t := ExitRounds(s, n, pid);
      && t.isActive && t.format == Webm && t.restartCount <= FormatRetryLimit
      && (n > 0 ==> t.initialized && t.restartCount >= 1)
    decreases n
  {
    if n > 0 {
      var t := Step(Step(s, TranscoderClosed(CurrentPid(s)), pid), RestartTimerFired, pid + 1);
      assert t.isActive && t.format == Webm && 1 <= t.restartCount <= FormatRetryLimit;
      ExitRoundsStayOnWebm(t, n - 1, pid + 2);
    }
  }

  /** As written, a freshly started stream whose transcoder exits six times has not
      left `webm`. */
  lemma StartedStreamNeverFallsBack(now: int, pid: nat)
    ensures ExitRounds(Started(now, pid), 6, pid + 1).format == Webm
  {
    ExitRoundsStayOnWebm(Started(now, pid), 6, pid + 1);
  }

  /** As written, the fallback is reached when exits come back to back with no restart
      timer in between: from `webm` after two restarts, three exits. A restart spawns
      nothing, so the three exits cannot all be the current transcoder's: one process
      reports at most an error and a close. The others come from processes whose
      handlers still see this record, such as the one a stall restart killed or one
      orphaned by `ChunkThenTimerOrphansProcess`; hence any ids `x1`, `x2`, `x3`. */
  lemma BackToBackExitsReachTestPattern(s: SessionState, x1: nat, x2: nat, x3: nat, pid: nat)
    requires s.isActive && s.format == Webm && s.restartCount == FormatRetryLimit
    ensures var t1 := Step(s, TranscoderClosed(x1), pid);
            var t2 := Step(t1, TranscoderClosed(x2), pid + 1);
            var t3 := Step(t2, TranscoderClosed(x3), pid + 2);
      && t1.format == Matroska && t1.restartCount == 1
      && t2.format == Matroska && t2.restartCount == 2
      && t3.format == TestPattern && t3.process == Some(Process(pid + 2, PatternSource, [], true))
  {
  }

  /** One exit followed by the restart timer, corrected. */
  function ExitRoundCorrected(s: SessionState, pid: nat): SessionState
  {
    StepCorrected(StepCorrected(s, TranscoderClosed(CurrentPid(s)), pid), RestartTimerFired, pid + 1)
  }

  /** With the corrected initialization the fallback works as designed: two restarts
      on `webm`, a switch to `matroska` with the counter reset, two more restarts, and
      the fifth exit reaches the test pattern. */
  lemma CorrectedExitsReachTestPattern(now: int, pid: nat)
    ensures var s1 := ExitRoundCorrected(Started(now, pid), pid + 1);
            var s2 := ExitRoundCorrected(s1, pid + 3);
            var s3 := ExitRoundCorrected(s2, pid + 5);
            var s4 := ExitRoundCorrected(s3, pid + 7);
            var s5 := StepCorrected(s4, TranscoderClosed(CurrentPid(s4)), pid + 9);
      && s1.format == Webm && s1.restartCount == 1
      && s2.format == Webm && s2.restartCount == 2
      && s3.format == Matroska && s3.restartCount == 1 && s3.initialized
      && s4.format == Matroska && s4.restartCount == 2
      && s5.format == TestPattern && s5.isActive
      && s5.process == Some(Process(pid + 9, PatternSource, [], true))
  {
  }

  // ---------------------------------------------------------------------------
  // Finding: the format fallback, through stalls.

  /** One round of a stalled session: the health tick restarts the transcoder, the
      close of the killed transcoder reaches the exit handler (whose record is still
      active) and restarts again, and the two restart timers fire. */
  function StallRound(s: SessionState, now: int, pid: nat): SessionState
  {
    var a := Step(s, HealthTick(now), pid);
    var b := Step(a, TranscoderClosed(CurrentPid(a)), pid + 1);
    Step(Step(b, RestartTimerFired, pid + 2), RestartTimerFired, pid + 3)
  }

  function StallRounds(s: SessionState, n: nat, now: int, pid: nat): SessionState
    decreases n
  {
    if n == 0 then s else StallRounds(StallRound(s, now, pid), n - 1, now, pid + 4)
  }

  /** As written, a stalled `webm` session never reaches the test pattern: the close
      of each killed transcoder counts a second restart, which triggers the switch to
      `matroska` and resets the counter, and initialization undoes the switch. */
  lemma {:induction false} StalledStreamStaysOnWebm(s: SessionState, n: nat, now: int, pid: nat)
    requires s.isActive && s.format == Webm && s.restartCount <= FormatRetryLimit
    requires now - s.lastFrameTime > StallWindowMs
    ensures var t := StallRounds(s, n, now, pid);
      && t.isActive && t.format == Webm && t.restartCount <= FormatRetryLimit
      && t.lastFrameTime == s.lastFrameTime
      && (n > 0 ==> t.initialized && t.restartCount >= 1)
    decreases n
  {
    if n > 0 {
      var t := StallRound(s, now, pid);
      assert t.isActive && t.format == Webm && 1 <= t.restartCount <= FormatRetryLimit;
      StalledStreamStaysOnWebm(t, n - 1, now, pid + 4);
    }
  }

  /** As written, a stream that stops receiving data right after its start is still
      restarting on `webm` after ten stall rounds. */
  lemma StalledStreamNeverFallsBack(start: int, now: int, pid: nat)
    requires now - start > StallWindowMs
    ensures StallRounds(Started(start, pid), 10, now, pid + 1).format == Webm
    ensures StallRounds(Started(start, pid), 10, now, pid + 1).isActive
  {
    StalledStreamStaysOnWebm(Started(start, pid), 10, now, pid + 1);
  }

  /** A stall round with the corrected initialization. */
  function StallRoundCorrected(s: SessionState, now: int, pid: nat): SessionState
  {
    var a := StepCorrected(s, HealthTick(now), pid);
    var b := StepCorrected(a, TranscoderClosed(CurrentPid(a)), pid + 1);
    StepCorrected(StepCorrected(b, RestartTimerFired, pid + 2), RestartTimerFired, pid + 3)
  }

  /** With the corrected initialization a stalled stream reaches the live test
      pattern in the third round, and the second timer of each round is a no-op. */
  lemma CorrectedStallReachesTestPattern(start: int, now: int, pid: nat)
    requires now - start > StallWindowMs
    ensures var s1 := StallRoundCorrected(Started(start, pid), now, pid + 1);
            var s2 := StallRoundCorrected(s1, now, pid + 5);
            var s3 := StallRoundCorrected(s2, now, pid + 9);
      && s1.format == Webm && s1.restartCount == 2 && s1.initialized
      && s2.format == Matroska && s2.restartCount == 1 && s2.initialized
      && s3.isActive && s3.format == TestPattern
      && s3.process == Some(Process(pid + 10, PatternSource, [], true))
  {
  }

  // ---------------------------------------------------------------------------
  // Finding: restart timers that fire when no initialization is awaited.

  /** As written, a restart timer that fires after the session was stopped spawns a
      transcoder for the stopped session ... */
  lemma StaleRestartTimerSpawns(s: SessionState, now: int, pid: nat, pid': nat)
    requires s.isActive && now - s.lastFrameTime > StallWindowMs && s.restartCount < RestartLimit
    ensures var t := Step(Step(Step(s, HealthTick(now), pid), StopRequested, pid + 1), RestartTimerFired, pid');
      && !t.isActive && t.initialized
      && t.process == Some(Process(pid', PipedInput, s.chunks, true))
  {
  }

  /** ... which nothing ends: once a session is inactive, no event but the restart
      timer and the exit of its own process changes it. */
  lemma InactiveSessionKeepsProcess(s: SessionState, e: Event, pid: nat)
    requires !s.isActive
    requires !e.RestartTimerFired?
    requires e.TranscoderClosed? ==> e.exited != CurrentPid(s)
    requires e.TestPatternClosed? ==> e.exited != CurrentPid(s)
    ensures Step(s, e, pid) == s
  {
  }

  /** As written, after a restart the buffer still holds the earlier chunks, so the
      next chunk initializes at once; the restart timer then spawns a second
      transcoder in place of the first, which is still live and never ended. */
  lemma ChunkThenTimerOrphansProcess(s: SessionState, c: Chunk, now: int, pid: nat, pid': nat)
    requires s.isActive && !s.initialized && |s.chunks| >= InitThreshold - 1
    ensures var t1 := Step(s, ChunkArrived(c, now), pid);
            var t2 := Step(t1, RestartTimerFired, pid');
      && t1.process == Some(Process(pid, PipedInput, t1.chunks, true))
      && t2.process == Some(Process(pid', PipedInput, t1.chunks, true))
  {
    WindowShape(s.chunks, c, BufferCapacity);
  }

  /** With the corrected initialization a stale timer leaves a stopped session alone. */
  lemma CorrectedTimerIgnoresStoppedSession(s: SessionState, now: int, pid: nat, pid': nat)
    requires s.isActive && now - s.lastFrameTime > StallWindowMs && s.restartCount < RestartLimit
    ensures var stopped := Step(Step(s, HealthTick(now), pid), StopRequested, pid + 1);
      && StepCorrected(stopped, RestartTimerFired, pid') == stopped
      && !stopped.isActive && !stopped.initialized
      && (stopped.process.Some? ==> !stopped.process.value.live)
  {
  }

  /** With the corrected initialization an inactive session changes only by the exit
      of its own process, the restart timer included. */
  lemma CorrectedInactiveSessionKeepsProcess(s: SessionState, e: Event, pid: nat)
    requires !s.isActive
    requires e.TranscoderClosed? ==> e.exited != CurrentPid(s)
    requires e.TestPatternClosed? ==> e.exited != CurrentPid(s)
    ensures StepCorrected(s, e, pid) == s
  {
  }

  /** With the corrected initialization the timer after a chunk-initialization keeps
      the running transcoder. */
  lemma CorrectedTimerKeepsRunningProcess(s: SessionState, c: Chunk, now: int, pid: nat, pid': nat)
    requires s.isActive && !s.initialized && |s.chunks| >= InitThreshold - 1
    ensures var t1 := StepCorrected(s, ChunkArrived(c, now), pid);
      && t1.initialized && t1.process == Some(Process(pid, PipedInput, t1.chunks, true))
      && StepCorrected(t1, RestartTimerFired, pid') == t1
  {
    WindowShape(s.chunks, c, BufferCapacity);
  }

  // ---------------------------------------------------------------------------
  // Routing.

  /** A disconnect stops exactly the active sessions whose stream room the
      connection is in and leaves every other session as it was. */
  lemma DisconnectStopsOwnedSessions(v: map<RoomId, SessionState>, rooms: seq<string>)
    ensures DisconnectAll(v, rooms).Keys == v.Keys
    ensures forall r :: r in v && StreamRoomPrefix + r !in rooms ==> DisconnectAll(v, rooms)[r] == v[r]
    ensures forall r :: r in v && StreamRoomPrefix + r in rooms && v[r].isActive ==>
      DisconnectAll(v, rooms)[r] == Stopped(v[r])
    ensures forall r :: r in v && !v[r].isActive ==> DisconnectAll(v, rooms)[r] == v[r]
  {
  }
}

=== FILE: stream_sessions.dfy ===
/** The per-room stream session of the HLS handler as a value, and the effect of
    every event the session reacts to. The transcoder is an abstract process that
    records what was written to its input; timers and the clock are events that
    carry the current time. */
module StreamSessions {
  import opened Results
  import opened ChunkBuffers

  type RoomId = string

  /** Capacity of the chunk buffer each session gets. */
  const BufferCapacity: nat := 20
  /** Buffered chunks needed before a chunk starts an uninitialized transcoder. */
  const InitThreshold: nat := 3
  /** Milliseconds without data after which a health check restarts the transcoder. */
  const StallWindowMs: int := 10000
  /** Restarts after which the session falls back to the test pattern. */
  const RestartLimit: nat := 5
  /** Restarts after which a process exit abandons the current input format. */
  const FormatRetryLimit: nat := 2
  /** Prefix of the socket room a streaming connection joins. */
  const StreamRoomPrefix: string := "stream:"

  /** The input-format tag of a session; `Unset` until the first initialization. */
  datatype Format = Unset | Webm | Matroska | TestPattern

  /** What a spawned transcoder reads: the piped browser media or a synthetic source. */
  datatype Feed = PipedInput | PatternSource

  /** A spawned transcoder: its id, its feed, every chunk written to its input, and
      whether it still accepts input (not killed, not exited). */
  datatype Process = Process(pid: nat, feed: Feed, input: seq<Chunk>, live: bool)

  datatype SessionState = SessionState(
    isActive: bool,
    initialized: bool,
    restartCount: nat,
    format: Format,
    lastFrameTime: int,
    chunks: seq<Chunk>,
    process: Option<Process>)

  /** Everything that can happen to an existing session. */
  datatype Event =
    | ChunkArrived(chunk: Chunk, now: int)   // a binary message routed to this room
    | RestartTimerFired                      // the delayed re-initialization after a restart
    | HealthTick(now: int)                   // the periodic health check
    | TranscoderClosed(exited: nat)          // a piped transcoder exited or failed
    | TestPatternClosed(exited: nat)         // the test-pattern transcoder exited
    | StopRequested                          // the stop request
    | OwnerDisconnected                      // a connection in the room's stream room left

  datatype StreamError = AlreadyStreaming | NoActiveStream

  /** The record a start request stores, before the transcoder is initialized. */
  function Fresh(now: int): SessionState
  {
    SessionState(true, false, 0, Unset, now, [], None)
  }

  /** Spawns a piped transcoder whatever the session's state (stopped or already
      running included), marks the session initialized, tags it `webm` whatever the
      fallback chose, and replays the whole buffer into the new process; nothing else
      changes. */
  function Initialize(s: SessionState, pid: nat): (r: SessionState)
    ensures r.initialized && r.format == Webm && r.process == Some(Process(pid, PipedInput, s.chunks, true))
    ensures r.(process := s.process, initialized := s.initialized, format := s.format) == s
  {
    s.(process := Some(Process(pid, PipedInput, s.chunks, true)), initialized := true, format := Webm)
  }

  /** What a start request leaves behind: a fresh record that is initialized at once. */
  function Started(now: int, pid: nat): (r: SessionState)
    ensures r.isActive && r.initialized && r.restartCount == 0 && r.format == Webm
    ensures r.lastFrameTime == now && r.chunks == []
    ensures r.process == Some(Process(pid, PipedInput, [], true))
  {
    Initialize(Fresh(now), pid)
  }

  /** The process after a kill or the end of its input: it takes no more input. */
  function Killed(p: Option<Process>): Option<Process>
  {
    if p.Some? then Some(p.value.(live := false)) else None
  }

  /** The process after the process `exited` has exited: only that one stops. */
  function Exited(p: Option<Process>, exited: nat): Option<Process>
  {
    if p.Some? && p.value.pid == exited then Some(p.value.(live := false)) else p
  }

  /** Replaces the transcoder of an active session with the synthetic test-pattern
      feed; the buffer, the counter and the timestamp are kept. */
  function TestPatternFallback(s: SessionState, pid: nat): (r: SessionState)
    ensures !s.isActive ==> r == s
    ensures s.isActive ==> r.isActive && r.initialized && r.format == TestPattern
                           && r.process == Some(Process(pid, PatternSource, [], true))
    ensures r.chunks == s.chunks && r.restartCount == s.restartCount && r.lastFrameTime == s.lastFrameTime
  {
    if !s.isActive then s
    else s.(process := Some(Process(pid, PatternSource, [], true)), format := TestPattern, initialized := true)
  }

  /** Kills the transcoder and schedules a re-initialization, or falls back to the
      test pattern once the restart limit is reached. */
  function Restart(s: SessionState, pid: nat): (r: SessionState)
    ensures !s.isActive ==> r == s
    ensures s.isActive && s.restartCount >= RestartLimit ==> r == TestPatternFallback(s, pid)
    ensures s.isActive && s.restartCount < RestartLimit ==>
      && r.isActive && !r.initialized && r.restartCount == s.restartCount + 1 && r.format == s.format
      && (r.process.Some? ==> !r.process.value.live)
    ensures r.chunks == s.chunks && r.lastFrameTime == s.lastFrameTime
  {
    if !s.isActive then s
    else if s.restartCount >= RestartLimit then TestPatternFallback(s, pid)
    else s.(process := Killed(s.process), restartCount := s.restartCount + 1, initialized := false)
  }

  /** The reaction to a transcoder exit: switch from `webm` to `matroska` after two
      restarts, give up on `matroska` after two more, restart otherwise. */
  function TryBackup(s: SessionState, pid: nat): (r: SessionState)
    ensures !s.isActive ==> r == s
    ensures s.isActive && s.format == Webm && s.restartCount >= FormatRetryLimit ==>
      r.isActive && r.format == Matroska && r.restartCount == 1 && !r.initialized
    ensures s.isActive && s.format == Matroska && s.restartCount >= FormatRetryLimit ==>
      r.format == TestPattern && r.process == Some(Process(pid, PatternSource, [], true))
    ensures s.isActive && (s.restartCount < FormatRetryLimit || s.format in {Unset, TestPattern}) ==> r == Restart(s, pid)
    ensures r.chunks == s.chunks && r.lastFrameTime == s.lastFrameTime
  {
    if !s.isActive then s
    else if s.format == Webm && s.restartCount >= FormatRetryLimit then
      Restart(s.(format := Matroska, restartCount := 0), pid)
    else if s.format == Matroska && s.restartCount >= FormatRetryLimit then
      TestPatternFallback(s, pid)
    else Restart(s, pid)
  }

  /** A binary chunk for an active session: refresh the timestamp, buffer the chunk,
      then either start the transcoder once enough is buffered or write the chunk to
      the running one. */
  function Received(s: SessionState, c: Chunk, now: int, pid: nat): (r: SessionState)
    ensures !s.isActive ==> r == s
    ensures s.isActive ==> r.isActive && r.lastFrameTime == now && r.chunks == Window(s.chunks + [c], BufferCapacity)
    ensures s.isActive && !s.initialized ==> (r.initialized <==> |r.chunks| >= InitThreshold)
    ensures r.restartCount == s.restartCount
  {
    if !s.isActive then s
    else
      var b := s.(lastFrameTime := now, chunks := Window(s.chunks + [c], BufferCapacity));
      if !b.initialized then
        (if |b.chunks| >= InitThreshold then Initialize(b, pid) else b)
      else if b.process.Some? && b.process.value.live then
        b.(process := Some(b.process.value.(input := b.process.value.input + [c])))
      else b
  }

  /** What stop and disconnect do to an active session. */
  function Stopped(s: SessionState): (r: SessionState)
    ensures !r.isActive && !r.initialized && (r.process.Some? ==> !r.process.value.live)
    ensures r.chunks == s.chunks && r.restartCount == s.restartCount && r.format == s.format
  {
    s.(isActive := false, initialized := false, process := Killed(s.process))
  }

  /** The effect of one event; `pid` is the id a process spawned by it receives. */
  function Step(s: SessionState, e: Event, pid: nat): (r: SessionState)
    ensures r.isActive ==> s.isActive
    ensures !e.ChunkArrived? ==> r.chunks == s.chunks && r.lastFrameTime == s.lastFrameTime
    ensures e.StopRequested? || e.OwnerDisconnected? || e.TestPatternClosed? ==> !r.isActive
  {
    match e
    case ChunkArrived(c, now) => Received(s, c, now, pid)
    case RestartTimerFired => Initialize(s, pid)
    case HealthTick(now) =>
      if s.isActive && now - s.lastFrameTime > StallWindowMs then Restart(s, pid) else s
    case TranscoderClosed(x) => TryBackup(s.(process := Exited(s.process, x)), pid)
    case TestPatternClosed(x) => s.(isActive := false, process := Exited(s.process, x))
    case StopRequested => if s.isActive then Stopped(s) else s
    case OwnerDisconnected => if s.isActive then Stopped(s) else s
  }

  /** A sequence of events, the k-th of them spawning with id `pid + k`. */
  function Run(s: SessionState, es: seq<Event>, pid: nat): SessionState
    decreases |es|
  {
    if es == [] then s else Run(Step(s, es[0], pid), es[1..], pid + 1)
  }

  /** The room of the first joined socket room that names a stream room, if any. */
  predicate IsStreamRoom(name: string)
  {
    |StreamRoomPrefix| <= |name| && name[..|StreamRoomPrefix|] == StreamRoomPrefix
  }

  function FindStreamRoom(rooms: seq<string>): (r: Option<RoomId>)
    ensures r.None? <==> forall i :: 0 <= i < |rooms| ==> !IsStreamRoom(rooms[i])
    ensures r.Some? ==> exists i :: 0 <= i < |rooms| && rooms[i] == StreamRoomPrefix + r.value
                          && forall j :: 0 <= j < i ==> !IsStreamRoom(rooms[j])
  {
    if rooms == [] then None
    else if IsStreamRoom(rooms[0]) then
      assert rooms[0] == StreamRoomPrefix + rooms[0][|StreamRoomPrefix|..];
      Some(rooms[0][|StreamRoomPrefix|..])
    else
      var r := FindStreamRoom(rooms[1..]);
      assert forall i :: 1 <= i < |rooms| ==> rooms[i] == rooms[1..][i - 1];
      r
  }

  /** An event delivered to the session of `room`, when there is one. */
  function Deliver(v: map<RoomId, SessionState>, room: RoomId, e: Event, pid: nat): map<RoomId, SessionState>
  {
    if room in v then v[room := Step(v[room], e, pid)] else v
  }

  /** A disconnect: every session whose stream room the connection is in receives it. */
  function DisconnectAll(v: map<RoomId, SessionState>, rooms: seq<string>): (r: map<RoomId, SessionState>)
    ensures r.Keys == v.Keys
    ensures forall room :: room in r && r[room].isActive ==> v[room].isActive && StreamRoomPrefix + room !in rooms
  {
    map room | room in v :: if StreamRoomPrefix + room in rooms then Step(v[room], OwnerDisconnected, 0) else v[room]
  }
}

=== FILE: stream_supervisor.dfy ===
/** The HLS stream handler's registry of per-room sessions (`activeStreams`) and its
    event handlers, proved against the session transitions of StreamSessions. Each
    handler draws one id from a counter for the transcoder it may spawn. */
module StreamSupervisor {
  import opened Results
  import opened ChunkBuffers
  import opened StreamSessions
  import opened Connections

  /** The record kept per room; its chunk buffer is an object updated in place. */
  datatype StreamData = StreamData(
    isActive: bool,
    initialized: bool,
    restartCount: nat,
    format: Format,
    lastFrameTime: int,
    chunkBuffer: ChunkBuffer,
    process: Option<Process>)

  /** The record as a value, with the chunks its buffer holds. */
  ghost function ViewOf(d: StreamData): SessionState
    reads d.chunkBuffer
  {
    SessionState(d.isActive, d.initialized, d.restartCount, d.format, d.lastFrameTime,
                 d.chunkBuffer.chunks, d.process)
  }

  /** The record of `room` holds a valid buffer of capacity 20 from `repr`, created for
      that room (so no two sessions share one), its value is `v`, and its process id
      was drawn before `nextPid`. */
  ghost predicate Fits(room: RoomId, d: StreamData, v: SessionState, repr: set<ChunkBuffer>,
                       owner: map<ChunkBuffer, RoomId>, nextPid: nat)
    reads d.chunkBuffer
  {
    && d.chunkBuffer in repr && d.chunkBuffer in owner && owner[d.chunkBuffer] == room
    && d.chunkBuffer.Valid() && d.chunkBuffer.maxSize == BufferCapacity
    && ViewOf(d) == v
    && (d.process.Some? ==> d.process.value.pid < nextPid)
  }

  /** Updating a key twice keeps the second value. */
  lemma UpdateTwice<K, V>(m: map<K, V>, k: K, a: V, b: V)
    ensures m[k := a][k := b] == m[k := b]
  {
  }

  /** Updating a key with its own value changes nothing. */
  lemma UpdateSame<K, V>(m: map<K, V>, k: K)
    requires k in m
    ensures m[k := m[k]] == m
  {
  }

  /** A disconnect applied to every session except those of `pending`. */
  ghost function DisconnectedExcept(v: map<RoomId, SessionState>, rooms: seq<string>, pending: set<RoomId>): map<RoomId, SessionState>
  {
    map room | room in v :: if room in pending then v[room] else DisconnectAll(v, rooms)[room]
  }

  /** Taking one more room out of `pending` updates that room alone. */
  lemma DisconnectedExceptStep(v: map<RoomId, SessionState>, rooms: seq<string>, pending: set<RoomId>, r: RoomId)
    requires r in pending && r in v
    ensures DisconnectedExcept(v, rooms, pending)[r] == v[r]
    ensures DisconnectedExcept(v, rooms, pending - {r})
            == DisconnectedExcept(v, rooms, pending)[r := if StreamRoomPrefix + r in rooms
                                                          then Step(v[r], OwnerDisconnected, 0) else v[r]]
  {
  }

  lemma DisconnectedExceptNone(v: map<RoomId, SessionState>, rooms: seq<string>)
    ensures DisconnectedExcept(v, rooms, {}) == DisconnectAll(v, rooms)
  {
  }

  lemma DisconnectedExceptAll(v: map<RoomId, SessionState>, rooms: seq<string>)
    ensures DisconnectedExcept(v, rooms, v.Keys) == v
  {
  }

  /** The playback address a successful start reports. */
  function PlaybackUrl(roomId: RoomId): string
  {
    "/streams/" + roomId + "/playlist.m3u8"
  }

  class Supervisor {
    var activeStreams: map<RoomId, StreamData>
    var nextPid: nat
    /** The sessions as values. */
    ghost var sessions: map<RoomId, SessionState>
    /** The chunk buffers of the sessions. */
    ghost var Repr: set<ChunkBuffer>
    /** The room each buffer was created for; no two sessions share a buffer. */
    ghost var owner: map<ChunkBuffer, RoomId>

    /** Each session's record fits its value in `sessions` and the ghost bookkeeping. */
    ghost predicate Valid()
      reads this, Repr
    {
      && activeStreams.Keys == sessions.Keys
      && forall r :: r in activeStreams ==>
           activeStreams[r].chunkBuffer in Repr && Fits(r, activeStreams[r], sessions[r], Repr, owner, nextPid)
    }

    constructor ()
      ensures Valid() && sessions == map[] && nextPid == 0
    {
      activeStreams := map[];
      nextPid := 0;
      sessions := map[];
      Repr := {};
      owner := map[];
    }

    /** Draws the id the next spawned process receives. */
    method DrawPid() returns (pid: nat)
      requires Valid()
      modifies this`nextPid
      ensures Valid() && pid == old(nextPid) && nextPid == pid + 1
    {
      pid := nextPid;
      nextPid := nextPid + 1;
      forall r | r in activeStreams
        ensures Fits(r, activeStreams[r], sessions[r], Repr, owner, nextPid)
      {
        assert Fits(r, activeStreams[r], sessions[r], Repr, owner, pid);
      }
    }

    /** Replaces the record of an existing session, keeping its buffer. */
    method Put(roomId: RoomId, d: StreamData, ghost v: SessionState)
      requires Valid() && roomId in activeStreams
      requires d.chunkBuffer == activeStreams[roomId].chunkBuffer && ViewOf(d) == v
      requires d.process.Some? ==> d.process.value.pid < nextPid
      modifies this
      ensures Valid() && nextPid == old(nextPid) && Repr == old(Repr)
      ensures activeStreams == old(activeStreams)[roomId := d]
      ensures sessions == old(sessions)[roomId := v]
    {
      activeStreams := activeStreams[roomId := d];
      sessions := sessions[roomId := v];
      forall r | r in activeStreams
        ensures activeStreams[r].chunkBuffer in Repr && Fits(r, activeStreams[r], sessions[r], Repr, owner, nextPid)
      {
        assert old(activeStreams[r].chunkBuffer in Repr && Fits(r, activeStreams[r], sessions[r], Repr, owner, nextPid));
      }
    }

    /** Puts a record with a buffer no session holds yet, replacing any record of the
        room. */
    method Insert(roomId: RoomId, d: StreamData, ghost v: SessionState)
      requires Valid() && d.chunkBuffer !in Repr
      requires d.chunkBuffer.Valid() && d.chunkBuffer.maxSize == BufferCapacity
      requires ViewOf(d) == v && (d.process.Some? ==> d.process.value.pid < nextPid)
      modifies this
      ensures Valid() && nextPid == old(nextPid) && Repr == old(Repr) + {d.chunkBuffer}
      ensures owner == old(owner)[d.chunkBuffer := roomId]
      ensures activeStreams == old(activeStreams)[roomId := d]
      ensures sessions == old(sessions)[roomId := v]
    {
      activeStreams := activeStreams[roomId := d];
      sessions := sessions[roomId := v];
      Repr := Repr + {d.chunkBuffer};
      owner := owner[d.chunkBuffer := roomId];
      forall r | r in activeStreams
        ensures activeStreams[r].chunkBuffer in Repr && Fits(r, activeStreams[r], sessions[r], Repr, owner, nextPid)
      {
        if r != roomId {
          assert old(activeStreams[r].chunkBuffer in Repr && Fits(r, activeStreams[r], sessions[r], Repr, owner, nextPid));
          assert activeStreams[r].chunkBuffer != d.chunkBuffer;
        }
      }
    }

    /** Buffers a chunk for the room's session and refreshes its timestamp; no other
        session's buffer changes. */
    method Append(roomId: RoomId, chunk: Chunk, now: int)
      requires Valid() && roomId in activeStreams
      modifies this, activeStreams[roomId].chunkBuffer
      ensures Valid() && nextPid == old(nextPid) && Repr == old(Repr)
      ensures activeStreams == old(activeStreams)[roomId := old(activeStreams)[roomId].(lastFrameTime := now)]
      ensures sessions == old(sessions)[roomId := old(sessions)[roomId].(lastFrameTime := now,
                chunks := Window(old(sessions)[roomId].chunks + [chunk], BufferCapacity))]
    {
      var d := activeStreams[roomId];
      d.chunkBuffer.Add(chunk);
      d := d.(lastFrameTime := now);
      activeStreams := activeStreams[roomId := d];
      sessions := sessions[roomId := ViewOf(d)];
      forall r | r in activeStreams
        ensures activeStreams[r].chunkBuffer in Repr && Fits(r, activeStreams[r], sessions[r], Repr, owner, nextPid)
      {
        if r != roomId {
          assert old(activeStreams[r].chunkBuffer in Repr && Fits(r, activeStreams[r], sessions[r], Repr, owner, nextPid));
          assert activeStreams[r].chunkBuffer != d.chunkBuffer;
        }
      }
    }

    /** Start for a room whose session is active is refused and changes nothing;
        otherwise a fresh session replaces any stopped one, the connection joins the
        stream room, and the transcoder is initialized at once. */
    method StartHlsStream(conn: Connection, roomId: RoomId, now: int) returns (r: Result<string, StreamError>)
      requires Valid()
      modifies this, conn`rooms
      ensures Valid() && nextPid == old(nextPid) + 1 && fresh(Repr - old(Repr))
      ensures roomId in old(sessions) && old(sessions)[roomId].isActive ==>
        r == Failure(AlreadyStreaming) && sessions == old(sessions) && conn.rooms == old(conn.rooms)
      ensures !(roomId in old(sessions) && old(sessions)[roomId].isActive) ==>
        && r == Success(PlaybackUrl(roomId))
        && sessions == old(sessions)[roomId := Started(now, old(nextPid))]
        && StreamRoomPrefix + roomId in conn.rooms
        && conn.rooms == if StreamRoomPrefix + roomId in old(conn.rooms) then old(conn.rooms)
                         else old(conn.rooms) + [StreamRoomPrefix + roomId]
    {
      var pid := DrawPid();
      if roomId in activeStreams && activeStreams[roomId].isActive {
        return Failure(AlreadyStreaming);
      }
      Create(roomId, now);
      assert fresh(Repr - old(Repr));
      conn.Join(StreamRoomPrefix + roomId);
      r := Success(PlaybackUrl(roomId));
      assert Step(Fresh(now), RestartTimerFired, pid) == Started(now, pid);
      InitializeStreamProcessor(roomId, pid);
      UpdateTwice(old(sessions), roomId, Fresh(now), Started(now, pid));
    }

    /** Stores a fresh active record with a new empty buffer of capacity 20 for the room,
        replacing any record it had. */
    method Create(roomId: RoomId, now: int)
      requires Valid()
      modifies this
      ensures Valid() && nextPid == old(nextPid) && fresh(Repr - old(Repr))
      ensures sessions == old(sessions)[roomId := Fresh(now)]
    {
      var buffer := new ChunkBuffer(BufferCapacity);
      Insert(roomId, StreamData(true, false, 0, Unset, now, buffer, None), Fresh(now));
    }

    /** Spawns a piped transcoder for the room's session, whatever its state, tags it
        `webm` and writes every buffered chunk to it in buffer order. This is also what
        the restart timer does when it fires. */
    method InitializeStreamProcessor(roomId: RoomId, pid: nat)
      requires Valid() && pid < nextPid
      modifies this
      ensures Valid() && nextPid == old(nextPid) && Repr == old(Repr)
      ensures sessions == Deliver(old(sessions), roomId, RestartTimerFired, pid)
    {
      if roomId !in activeStreams {
        return;
      }
      var d := activeStreams[roomId];
      assert d.chunkBuffer.Valid();
      var chunks := d.chunkBuffer.GetChunks();
      var input: seq<Chunk> := [];
      for i := 0 to |chunks|
        invariant input == chunks[..i]
      {
        input := input + [chunks[i]];
      }
      assert input == d.chunkBuffer.chunks;
      Put(roomId, d.(process := Some(Process(pid, PipedInput, input, true)), initialized := true, format := Webm),
          Step(sessions[roomId], RestartTimerFired, pid));
    }

    /** Replaces the transcoder of an active session with the test-pattern feed. */
    method GenerateTestPattern(roomId: RoomId, pid: nat)
      requires Valid() && pid < nextPid
      modifies this
      ensures Valid() && nextPid == old(nextPid) && Repr == old(Repr)
      ensures sessions == if roomId in old(sessions)
                          then old(sessions)[roomId := TestPatternFallback(old(sessions)[roomId], pid)]
                          else old(sessions)
    {
      if roomId !in activeStreams || !activeStreams[roomId].isActive {
        return;
      }
      var d := activeStreams[roomId];
      Put(roomId, d.(process := Some(Process(pid, PatternSource, [], true)),
                                                  format := TestPattern, initialized := true), TestPatternFallback(sessions[roomId], pid));
    }

    /** Kills the transcoder of an active session and counts the restart (the
        re-initialization is the later restart-timer event), or falls back to the
        test pattern once five restarts were made. */
    method RestartProcessor(roomId: RoomId, pid: nat)
      requires Valid() && pid < nextPid
      modifies this
      ensures Valid() && nextPid == old(nextPid) && Repr == old(Repr)
      ensures sessions == if roomId in old(sessions)
                          then old(sessions)[roomId := Restart(old(sessions)[roomId], pid)]
                          else old(sessions)
    {
      if roomId !in activeStreams || !activeStreams[roomId].isActive {
        return;
      }
      var d := activeStreams[roomId];
      if d.restartCount >= RestartLimit {
        GenerateTestPattern(roomId, pid);
        return;
      }
      Put(roomId, d.(process := Killed(d.process),
                                                  restartCount := d.restartCount + 1, initialized := false), Restart(sessions[roomId], pid));
    }

    /** The reaction to a transcoder exit: format fallback, test pattern or restart. */
    method TryBackupProcessor(roomId: RoomId, pid: nat)
      requires Valid() && pid < nextPid
      modifies this
      ensures Valid() && nextPid == old(nextPid) && Repr == old(Repr)
      ensures sessions == if roomId in old(sessions)
                          then old(sessions)[roomId := TryBackup(old(sessions)[roomId], pid)]
                          else old(sessions)
    {
      if roomId !in activeStreams || !activeStreams[roomId].isActive {
        return;
      }
      var d := activeStreams[roomId];
      ghost var v := sessions;
      ghost var s := v[roomId];
      if d.format == Webm && d.restartCount >= FormatRetryLimit {
        ghost var switched := s.(format := Matroska, restartCount := 0);
        Put(roomId, d.(format := Matroska, restartCount := 0), switched);
        RestartProcessor(roomId, pid);
        UpdateTwice(v, roomId, switched, Restart(switched, pid));
      } else if d.format == Matroska && d.restartCount >= FormatRetryLimit {
        GenerateTestPattern(roomId, pid);
      } else {
        RestartProcessor(roomId, pid);
      }
    }

    /** A binary chunk from a connection, routed to the session of the connection's
        first stream room; ignored without such a room. */
    method HandleBinaryStream(conn: Connection, chunk: Chunk, now: int)
      requires Valid()
      modifies this, Repr
      ensures Valid() && nextPid == old(nextPid) + 1 && Repr == old(Repr)
      ensures sessions == match FindStreamRoom(conn.rooms)
                          case None => old(sessions)
                          case Some(room) => Deliver(old(sessions), room, ChunkArrived(chunk, now), old(nextPid))
    {
      var pid := DrawPid();
      var streamRoom := FindStreamRoom(conn.rooms);
      if streamRoom.Some? {
        Feed(streamRoom.value, chunk, now, pid);
      }
    }

    /** A chunk for the session of `roomId`: ignored without an active session there;
        otherwise buffered, then either the transcoder is initialized once three chunks
        are buffered or the chunk is written to the live transcoder. */
    method Feed(roomId: RoomId, chunk: Chunk, now: int, pid: nat)
      requires Valid() && pid < nextPid
      modifies this, Repr
      ensures Valid() && nextPid == old(nextPid) && Repr == old(Repr)
      ensures sessions == Deliver(old(sessions), roomId, ChunkArrived(chunk, now), pid)
    {
      if roomId !in activeStreams {
        return;
      }
      if !activeStreams[roomId].isActive {
        UpdateSame(sessions, roomId);
        return;
      }
      ghost var v := sessions;
      ghost var s := v[roomId];
      ghost var b := s.(lastFrameTime := now, chunks := Window(s.chunks + [chunk], BufferCapacity));
      Append(roomId, chunk, now);
      var d := activeStreams[roomId];
      if !d.initialized {
        if |d.chunkBuffer.GetChunks()| >= InitThreshold {
          InitializeStreamProcessor(roomId, pid);
          UpdateTwice(v, roomId, b, Initialize(b, pid));
        }
        return;
      }
      if d.process.Some? && d.process.value.live {
        var p := d.process.value;
        ghost var written := b.(process := Some(p.(input := p.input + [chunk])));
        Put(roomId, d.(process := Some(p.(input := p.input + [chunk]))), written);
        UpdateTwice(v, roomId, b, written);
      }
    }

    /** The restart timer fires: the room's session is re-initialized. */
    method RestartTimerFires(roomId: RoomId)
      requires Valid()
      modifies this
      ensures Valid() && nextPid == old(nextPid) + 1 && Repr == old(Repr)
      ensures sessions == Deliver(old(sessions), roomId, RestartTimerFired, old(nextPid))
    {
      var pid := DrawPid();
      InitializeStreamProcessor(roomId, pid);
    }

    /** The health check: the timer stops once the session is gone or inactive, and a
        restart is made only when no data came for more than ten seconds. */
    method HealthCheck(roomId: RoomId, now: int) returns (keepTimer: bool)
      requires Valid()
      modifies this
      ensures Valid() && nextPid == old(nextPid) + 1 && Repr == old(Repr)
      ensures keepTimer <==> roomId in old(sessions) && old(sessions)[roomId].isActive
      ensures sessions == Deliver(old(sessions), roomId, HealthTick(now), old(nextPid))
    {
      var pid := DrawPid();
      keepTimer := roomId in activeStreams && activeStreams[roomId].isActive;
      if keepTimer {
        CheckStall(roomId, now, pid);
      } else if roomId in activeStreams {
        UpdateSame(sessions, roomId);
      }
    }

    /** An active session is restarted when no data came for more than ten seconds. */
    method CheckStall(roomId: RoomId, now: int, pid: nat)
      requires Valid() && pid < nextPid && roomId in activeStreams && activeStreams[roomId].isActive
      modifies this
      ensures Valid() && nextPid == old(nextPid) && Repr == old(Repr)
      ensures sessions == old(sessions)[roomId := Step(old(sessions)[roomId], HealthTick(now), pid)]
    {
      if now - activeStreams[roomId].lastFrameTime > StallWindowMs {
        RestartProcessor(roomId, pid);
      } else {
        UpdateSame(sessions, roomId);
      }
    }

    /** A piped transcoder of the room exited or failed. */
    method TranscoderExit(roomId: RoomId, exited: nat)
      requires Valid()
      modifies this
      ensures Valid() && nextPid == old(nextPid) + 1 && Repr == old(Repr)
      ensures sessions == Deliver(old(sessions), roomId, TranscoderClosed(exited), old(nextPid))
    {
      var pid := DrawPid();
      if roomId in activeStreams {
        ReactToExit(roomId, exited, pid);
      }
    }

    /** The exit of process `exited` ends that process; an active session then tries
        its backup. */
    method ReactToExit(roomId: RoomId, exited: nat, pid: nat)
      requires Valid() && pid < nextPid && roomId in activeStreams
      modifies this
      ensures Valid() && nextPid == old(nextPid) && Repr == old(Repr)
      ensures sessions == old(sessions)[roomId := Step(old(sessions)[roomId], TranscoderClosed(exited), pid)]
    {
      var d := activeStreams[roomId];
      ghost var v := sessions;
      ghost var exitedState := v[roomId].(process := Exited(d.process, exited));
      assert Step(v[roomId], TranscoderClosed(exited), pid) == TryBackup(exitedState, pid);
      Put(roomId, d.(process := Exited(d.process, exited)), exitedState);
      if d.isActive {
        TryBackupProcessor(roomId, pid);
        UpdateTwice(v, roomId, exitedState, TryBackup(exitedState, pid));
      } else {
        assert TryBackup(exitedState, pid) == exitedState;
      }
    }

    /** The test-pattern transcoder of the room exited: the session becomes inactive. */
    method TestPatternExit(roomId: RoomId, exited: nat)
      requires Valid()
      modifies this
      ensures Valid() && nextPid == old(nextPid) && Repr == old(Repr)
      ensures sessions == Deliver(old(sessions), roomId, TestPatternClosed(exited), 0)
    {
      if roomId in activeStreams {
        var d := activeStreams[roomId];
        Put(roomId, d.(isActive := false, process := Exited(d.process, exited)),
            Step(sessions[roomId], TestPatternClosed(exited), 0));
      }
    }

    /** Stop is refused for a missing or inactive session; otherwise the session is
        deactivated, its transcoder's input ended, and the connection leaves the
        stream room. */
    method StopHlsStream(conn: Connection, roomId: RoomId) returns (r: Result<(), StreamError>)
      requires Valid()
      modifies this, conn`rooms
      ensures Valid() && nextPid == old(nextPid) && Repr == old(Repr)
      ensures !(roomId in old(sessions) && old(sessions)[roomId].isActive) ==>
        r == Failure(NoActiveStream) && sessions == old(sessions) && conn.rooms == old(conn.rooms)
      ensures roomId in old(sessions) && old(sessions)[roomId].isActive ==>
        && r == Success(())
        && sessions == Deliver(old(sessions), roomId, StopRequested, 0)
        && conn.rooms == Seqs.Without(old(conn.rooms), StreamRoomPrefix + roomId)
    {
      if roomId !in activeStreams || !activeStreams[roomId].isActive {
        return Failure(NoActiveStream);
      }
      var d := activeStreams[roomId];
      Put(roomId, d.(isActive := false, initialized := false, process := Killed(d.process)),
          Step(sessions[roomId], StopRequested, 0));
      conn.Leave(StreamRoomPrefix + roomId);
      r := Success(());
    }

    /** Stops the session of `roomId` if it is active and the leaving connection was in
        its stream room. */
    method StopIfOwned(roomId: RoomId, owned: bool)
      requires Valid() && roomId in activeStreams
      modifies this
      ensures Valid() && nextPid == old(nextPid) && Repr == old(Repr)
      ensures activeStreams.Keys == old(activeStreams).Keys
      ensures sessions == old(sessions)[roomId := if owned then Step(old(sessions)[roomId], OwnerDisconnected, 0)
                                                   else old(sessions)[roomId]]
    {
      var d := activeStreams[roomId];
      if owned && d.isActive {
        Put(roomId, d.(isActive := false, initialized := false, process := Killed(d.process)),
            Step(sessions[roomId], OwnerDisconnected, 0));
      } else {
        UpdateSame(sessions, roomId);
      }
    }

    /** The connection is gone: every active session whose stream room it is in is
        stopped; all other sessions are left as they are. */
    method Disconnect(conn: Connection)
      requires Valid()
      modifies this
      ensures Valid() && nextPid == old(nextPid) && Repr == old(Repr)
      ensures sessions == DisconnectAll(old(sessions), conn.rooms)
    {
      ghost var v := sessions;
      var pending := activeStreams.Keys;
      DisconnectedExceptAll(v, conn.rooms);
      while pending != {}
        invariant Valid() && nextPid == old(nextPid) && Repr == old(Repr)
        invariant pending <= activeStreams.Keys && activeStreams.Keys == v.Keys
        invariant sessions == DisconnectedExcept(v, conn.rooms, pending)
        decreases pending
      {
        var r :| r in pending;
        DisconnectedExceptStep(v, conn.rooms, pending, r);
        StopIfOwned(r, StreamRoomPrefix + r in conn.rooms);
        pending := pending - {r};
      }
      DisconnectedExceptNone(v, conn.rooms);
    }
  }
}
